=== FILE: README.md ===
# ipfs-api: key handling, envelope encryption, IPFS URIs and token extraction

This project models the security core of the `ipfs-api` Go service in Dafny.
The service is an HTTP front end that encrypts user files before they go to
IPFS. The model covers five parts of it.

- **Envelope encryption** (`services/crypto_service.go`). Each user email owns
  one random 24-byte AES-192 data key. The key is stored in MongoDB as
  `hex(nonce ‖ AES-GCM-seal(masterKey, userKey))`. A file is sealed under the
  user's key as `nonce ‖ ciphertext ‖ tag`. Modules `CryptoService`,
  `KeyStore` (the collection, seen through FindOne, CountDocuments and
  InsertOne), `Gcm` (the AEAD interface) and `Hex` (Go's `encoding/hex`).
- **Master key file** (`cutils/key.go`). GenerateKey, GenerateKeyFile and the
  two path builders. Module `KeyFile`, over a file system that is a map from
  path to contents, with runs of slashes collapsed as Linux resolves them.
- **Master key loading** (`main.go`'s `loadKey`). Module `MasterKey`.
- **IPFS URIs** (`ipfs_client/client.go`). The gateway fetch URI and the API
  URI with its query string. Module `IpfsClient`.
- **Token extraction** (`middlewares/auth.go`). Trim, the length check, the
  split on one space, and the accept/reject decision of both middlewares.
  Module `Auth`.

Module `Go` holds the Go notions shared by all of these:

- `byte`;
- nil-able values (`Option`);
- reads from `crypto/rand` (`Draw`);
- the four ways a call ends (`Res`): a value, a returned error, a panic, or
  `log.Fatal`.

Inputs the model does not compute:

- randomness, the home directory and the file system;
- store failures (FindOne, CountDocuments, InsertOne) and file-system failures
  (the key file's read, create and write), as per-request fault flags;
- Go's map iteration order;
- the authentication service's verdicts;
- AES-GCM itself, as a pair of functions. Its round trip and its length are
  the hypothesis `Gcm.Sound`, and the lemmas that rely on them assume it.

`OrphanedKey` is a concrete scenario, proved. It builds a toy AEAD, proves
the toy satisfies `Sound`, and proves what the finding below does with it.

Quirks of the code the model reproduces:

- `GetKeyPath` puts a second slash in front of the home path.
- `gcm.Open` returns nil for an empty plaintext, so an empty unwrapped key
  reads as "no key".
- `loadKey` ignores hex decode errors, except the panic on overlong input.

## Model

| member | source | states |
|---|---|---|
| Go.IndexByte | middlewares/auth.go:23 | the index is the first occurrence of the character, or the length when it is absent |
| Go.Utf8Width | middlewares/auth.go:16 | a character takes one to four bytes in UTF-8, and one exactly when it is ASCII |
| Go.ByteLen | middlewares/auth.go:16 | Go's len of a string is at least its character count, and equal to it exactly when every character is ASCII |
| Go.ShorterThanTwoBytes | middlewares/auth.go:16 | a string is shorter than two bytes exactly when it is empty or one ASCII character |
| Hex.Lower | services/crypto_service.go:164 | the result has the same length and folds each 'A'..'F' to lower case pointwise, as the decoder treats both cases alike |
| Hex.EncodeToString | services/crypto_service.go:224 | the output is twice as long, and each byte becomes its high then low nibble as lower-case hex digits |
| Hex.DecodedPairs | main.go:92 | the bytes are the maximal run of leading valid hex pairs, each one the value of its pair, and the run stops only at the end or at a bad pair |
| Hex.DecodeString | services/crypto_service.go:164 | it fails exactly when the text is not valid hex (odd length or a bad digit), and on success yields one byte per pair |
| Hex.DecodeInto | main.go:92 | it panics exactly when there are more valid pairs than the buffer holds; otherwise the buffer holds the pairs followed by its old tail |
| Hex.DecodeEncode | services/crypto_service.go:164 | decoding the encoding of any bytes gives the bytes back without error |
| Hex.EncodeDecode | services/crypto_service.go:164 | encoding the decoding of valid hex gives the text back, folded to lower case |
| Gcm.Open | services/crypto_service.go:102 | input shorter than the tag or longer than the longest sealed text is refused, and any plaintext comes from the AEAD's open |
| KeyStore.FirstMatch | services/crypto_service.go:158 | it finds no match exactly when the email has no record; otherwise the index of its first record in insertion order |
| KeyStore.Count | services/crypto_service.go:240 | the count is zero exactly when the email has no record |
| KeyStore.FindOne | services/crypto_service.go:155-158 | a failed call is an error; otherwise it is absent exactly when there is no record, and a found key belongs to a record of that email |
| KeyStore.CountDocuments | services/crypto_service.go:239-240 | the error flag is the fault, and the count is positive exactly when the call works and the email has a record |
| KeyStore.InsertOne | services/crypto_service.go:207-210 | it succeeds exactly when the insert does not fail, appending the document and leaving the rest unchanged |
| KeyStore.AppendFirstRecord | services/crypto_service.go:204-207 | appending an email's first record keeps emails unique, and FindOne then returns that record |
| CryptoService.AESEncrypt | services/crypto_service.go:64-84 | it panics on a bad key length, a failed nonce read, or data over gcm.Seal's limit of 2^32 - 2 blocks; otherwise the output starts with the nonce and is nonce + data + tag long |
| CryptoService.AESDecrypt | services/crypto_service.go:89-107 | it panics on a bad key length, on input shorter than the nonce, and on input too short for a tag or too long to have been sealed; any plaintext returned is the one the AEAD authenticated |
| CryptoService.AESRoundTrip | services/crypto_service.go:64-107 | under a valid key, AESEncrypt succeeds exactly on data within the GCM limit, and AESDecrypt of its output returns the data |
| CryptoService.FetchKey | services/crypto_service.go:150-169 | nil exactly when the lookup fails or the email has no record, a panic exactly when the stored text is not hex, and otherwise the bytes the stored hex encodes |
| CryptoService.FetchDecryptedKey | services/crypto_service.go:174-185 | nil when FetchKey is nil; FetchKey's panic passes on; otherwise the key unwrapped under the master key, with an empty unwrap read as nil |
| CryptoService.IsEmailExist | services/crypto_service.go:233-247 | the error is the fault, and existence holds exactly when the count works and the email has a record |
| CryptoService.StoreKey | services/crypto_service.go:189-212 | a count error panics; an existing record makes it a no-op; otherwise it inserts or returns the insert error; emails stay unique |
| CryptoService.GenerateUserKeyWithStoring | services/crypto_service.go:219-230 | it succeeds exactly when the key and nonce are drawn, the master key is valid, the count works, and either the email has a record or the insert works; each failure is named (log.Fatal on the key draw, the AESEncrypt panics, the count panic, the insert error); on success it returns the drawn 24-byte key, the store gains the wrapped record exactly when the email had none, and emails stay unique |
| CryptoService.EncryptUserFile | services/crypto_service.go:114-132 | a lookup panic passes on; an existing key seals without writing; with no key, GenerateUserKeyWithStoring's failure is returned as is and its key otherwise seals the file over the store it left; the store gains at most the user's first record; the blob starts with the file nonce and is nonce + file + tag long |
| CryptoService.DecryptUserFile | services/crypto_service.go:134-146 | nil exactly when no key comes back (always on a failed or empty lookup); any plaintext returned was authenticated under the user's key |
| CryptoService.WellFormedLookup | services/crypto_service.go:174-185 | on a store of records the service wrote, a working lookup never panics: nil exactly when there is no record, else a 24-byte key |
| CryptoService.WrappedRecord | services/crypto_service.go:220-225 | the record is filed under the user's email and holds valid hex; what that hex unwraps to is stated by WrappedRecordUnwraps |
| CryptoService.WrappedRecordUnwraps | services/crypto_service.go:219-225 | the record GenerateUserKeyWithStoring writes decodes and unwraps to the generated key |
| CryptoService.KeyStability | services/crypto_service.go:174-230 | once a key is stored, later working lookups return that same key |
| CryptoService.EncryptKeepsStoreWellFormed | services/crypto_service.go:114-132 | EncryptUserFile keeps every record one that unwraps to a 24-byte key |
| CryptoService.EncryptDecryptRoundTrip | services/crypto_service.go:114-146 | decrypting an uploaded file for the same user gives the file back, unless the lookup failed at upload time while a record existed |
| CryptoService.LookupFailureOrphansKey | services/crypto_service.go:116-131 | after a failed lookup for a user with a record, the file is sealed under the fresh key and the store is left unchanged |
| CryptoService.FetchDecryptedKeyChecked | services/crypto_service.go:174-185 | a failed lookup is an error and never reads as "no key"; otherwise it agrees with FetchDecryptedKey |
| CryptoService.EncryptUserFileChecked | services/crypto_service.go:114-132 | a failed lookup is an error, and otherwise it is EncryptUserFile; the blob carries the file nonce and has the sealed length; emails stay unique |
| CryptoService.FirstUploadStoresKey | services/crypto_service.go:123-131 | a fault-free first upload with drawn coins, a valid master key and a file within the GCM limit succeeds, appends exactly the user's wrapped key record, and seals the file under the new key; the corrected upload gives the same result |
| CryptoService.CheckedRoundTrip | services/crypto_service.go:114-146 | for every fault pattern, what the corrected upload seals decrypts to the file, and the store stays well formed |
| OrphanedKey.ToyAeadIsSound | services/crypto_service.go:81 | the toy AEAD has the length and round-trip properties assumed of AES-GCM |
| OrphanedKey.UploadDuringLookupFailureIsUnreadable | services/crypto_service.go:114-146 | with Alice's record present and FindOne failing once, the upload succeeds and the store stays unchanged, yet a later download panics with a failed authentication |
| KeyFile.Canonical | main.go:81 | collapsing slashes never lengthens a path, keeps its first character, and leaves no double slash |
| KeyFile.ReadFile | main.go:81 | the file system finds a file exactly when its canonical path is present, and gives that file's contents; failures of the read itself are the fault flag in MasterKey.KeyFileText |
| KeyFile.GenerateKey | cutils/key.go:11-19 | a working draw gives its 24 bytes, and a failed one ends the process |
| KeyFile.GetKeyDirPath | cutils/key.go:41-48 | with $HOME empty or unset the process ends; otherwise the path is the home followed by "/.catena" |
| KeyFile.KeyFilePath | cutils/key.go:28 | the created file's name is the directory, then "/master.key" |
| KeyFile.GetKeyPath | cutils/key.go:50-52 | without a home directory the process ends; otherwise "/" + home + "/.catena/master.key" |
| KeyFile.GenerateKeyFile | cutils/key.go:21-39 | it succeeds exactly when the draw, the home directory, the create and the write all work; the key file then holds the key's hex |
| KeyFile.GeneratedFileDecodesToKey | cutils/key.go:21-39 | the written file is 48 lower-case hex digits that decode to the returned key |
| KeyFile.GenerateKeyFileWritesOnlyKeyFile | cutils/key.go:21-39 | every other file reads as it did before |
| KeyFile.LeadingSlashIsHarmless | cutils/key.go:50-52 | a slash in front of an absolute path names the same file |
| KeyFile.KeyPathNamesWrittenFile | cutils/key.go:21-52 | with an absolute home, the read path and the written path are the same file |
| KeyFile.RelativeHomeSplitsKeyPaths | cutils/key.go:21-52 | with a relative home, the read path and the written path are different names once slashes are collapsed |
| MasterKey.Zeros | main.go:80 | the buffer has the given length and is all zero |
| MasterKey.KeyFileText | main.go:81 | a failed read gives nothing; otherwise the contents of the file GetKeyPath names, if it exists |
| MasterKey.LoadKey | main.go:77-94 | without a home the process ends; a missing or unreadable file means a generated one; otherwise the result is Ok exactly when there are at most 24 valid leading pairs, and is then those pairs zero padded to 24 bytes with no decode error surfaced; with more pairs it panics |
| MasterKey.WellFormedKeyFileLoads | main.go:77-94 | a file of exactly 48 hex digits loads as the bytes they encode, which encode back to the digits |
| MasterKey.LoadAfterGenerate | main.go:77-94 | with an absolute home and a read that does not fail, loading after generating returns the generated key |
| MasterKey.ReadBackWrittenKey | main.go:81 | with an absolute home, the file loadKey reads holds the hex GenerateKeyFile wrote |
| MasterKey.ReadFailureReplacesKeyFile | main.go:81-89 | when reading an existing key file fails, loadKey returns a fresh key and the key file now holds that key's hex, so the previous master key is overwritten |
| MasterKey.ShortKeyFileIsZeroPadded | main.go:92-93 | the file "ab" loads without error as 0xab followed by 23 zero bytes |
| MasterKey.OverlongKeyFilePanics | main.go:92 | valid hex of more than 48 digits panics |
| IpfsClient.NewClient | ipfs_client/client.go:30-35 | the client keeps both URIs as given |
| IpfsClient.FormFetchUri | ipfs_client/client.go:108-113 | the URI is the gateway URI followed immediately by the CID |
| IpfsClient.QueryText | ipfs_client/client.go:125-130 | the text is empty exactly when there are no keys, and otherwise ends in '&' |
| IpfsClient.FormApiIpfsUri | ipfs_client/client.go:117-133 | a nil query gives API URI + endpoint; otherwise that plus '?', ending in '?' for an empty map and '&' for a non-empty one |
| IpfsClient.ParseEntry | ipfs_client/client.go:126-129 | an entry whose key has no '=' or '&', and whose value has no '&', reads back as itself |
| IpfsClient.QueryTextParses | ipfs_client/client.go:125-130 | the query text reads back as the entries, in iteration order |
| IpfsClient.Entries | ipfs_client/client.go:125-129 | one (key, value) pair per visited key, in iteration order, each key with its own value |
| IpfsClient.ApiUriCarriesEachEntryOnce | ipfs_client/client.go:117-133 | for an unambiguous query, the text after '?' reads back as exactly the entries, one per map key |
| IpfsClient.EnumerationCount | ipfs_client/client.go:125 | the map iteration visits as many keys as the map has |
| IpfsClient.QueryIsNotEscaped | ipfs_client/client.go:126-129 | {a: "1&b=2"} and {a: "1", b: "2"} give the same URI |
| Auth.LeadingSpaces | middlewares/auth.go:15 | everything before the index is a space, and the character at it is not |
| Auth.TrailingStart | middlewares/auth.go:15 | everything from the index on is a space, and the character before it is not |
| Auth.Trim | middlewares/auth.go:15 | the result is the middle of the header, everything outside it is a space, and it neither starts nor ends with one |
| Auth.TrimIsIdempotent | middlewares/auth.go:15 | trimming twice is trimming once |
| Auth.Split | middlewares/auth.go:23 | there is always at least one piece; that the pieces joined with spaces give the header back, and are read back from such a join, is stated by JoinSplit and SplitJoin |
| Auth.SplitsIffSpace | middlewares/auth.go:23 | the split has a second element exactly when the header holds a space |
| Auth.JoinSplit | middlewares/auth.go:23 | joining the pieces with spaces gives the header back |
| Auth.SplitJoin | middlewares/auth.go:23 | splitting a join of space-free pieces gives the pieces back |
| Auth.Token | middlewares/auth.go:23 | the second piece of the split leaves out at least the first space; which text it is, is stated by TokenFollowsFirstSpace |
| Auth.TokenFollowsFirstSpace | middlewares/auth.go:23 | the token is the space-free text after the first space, up to the next space or the end |
| Auth.Authorize | middlewares/auth.go:14-58 | a trimmed header shorter than two UTF-8 bytes gets 401 and the service is not asked; one with no space panics; otherwise the token is asked about, and an error gives 500, a rejection 401, and success the next handler |
| Auth.ValidateJwtToken | middlewares/auth.go:14-35 | "No JWT token provided" for a trimmed header shorter than two bytes; on success the next handler sees email and userUid from the validation data |
| Auth.IntrospectAccessToken | middlewares/auth.go:37-58 | "No access token provided" for a trimmed header shorter than two bytes; on success it sees clientId, scopes, and the subject as email |
| Auth.SchemeIsNotChecked | middlewares/auth.go:23 | any space-free first word is accepted in place of "Bearer" |
| Auth.DoubleSpaceAsksAboutEmptyToken | middlewares/auth.go:23 | "Bearer  t" asks the service about the empty token |
| Auth.SchemeAlonePanics | middlewares/auth.go:15-23 | "Bearer " trims to a header with no space and panics before the service is asked |
| Auth.NonAsciiCharPanics | middlewares/auth.go:15-23 | the one-character header "é" is two bytes long, so it passes the length check and panics at the split |

## Left out

- AES and GCM internals (block cipher, GHASH, tamper detection) are uninterpreted; `Gcm.Sound` states only the round trip and the length. Go's length limits of `gcm.Seal` and `gcm.Open` are modelled, as `Gcm.MaxSealSize`.
- crypto/rand: each read is an input value or a failure, in the order the code draws them.
- MongoDB connection setup, contexts and timeouts: a timed-out call is the corresponding fault flag.
- The check-then-insert race in StoreKey between concurrent requests: each call is modelled as atomic.
- A failed InsertOne is taken to have written nothing.
- `os.MkdirAll` and its ignored error; a file write that fails part-way before `log.Fatal`.
- `defer out.Close()` and close errors.
- The home directory is the value of $HOME, with the empty string for empty or unset, which is when `os.UserHomeDir` fails on Linux; other platforms' home lookups are not modelled.
- KeyFile.RelativeHomeSplitsKeyPaths: relative paths are not resolved against the working directory, and `Canonical` resolves neither ".", ".." nor symbolic links; it compares names only. With a relative $HOME and the working directory "/", or with $HOME ".." and the working directory "/x", both names denote the same file, which the lemma does not claim.
- Go strings and file contents are bytes, while Dafny strings are characters. For hex text (the key file loadKey reads, the stored `key` field FetchKey decodes) both views agree: a non-ASCII character is never a hex digit, so the run of leading valid pairs is the same and decoding fails in both. For paths they agree because the byte 0x2F ('/') never occurs inside a multi-byte character. Key-file contents, stored keys and $HOME values that are not valid UTF-8 cannot be written as a Dafny string and are not modelled. The header's length check counts UTF-8 bytes (`Go.ByteLen`); trimming and splitting on the ASCII space give the same pieces over bytes and characters, because the byte 0x20 never occurs inside a multi-byte character. Headers that are not valid UTF-8 cannot be written as a Dafny string and are not modelled.
- Hex.DecodedPairs: follows `encoding/hex` from Go 1.12 on, where the pairs before a bad one are still written; older releases differ.
- CryptoService.DecryptUserFile: does not distinguish a nil plaintext from an empty one.
- KeyStore: the collection is a sequence of documents rather than a map, so that one record per email is a property to prove, not a given.
- HTTP and network code: IPFSClient.FetchFile and UploadFile, the auth service's JWT validation and Hydra introspection, and TLS client setup.
- middlewares/ipfs.go, misc.go, route wiring and `main`'s server start-up.
- Auth.Authorize: the JSON rendering of replies and Fiber's context are replaced by a reply value; `c.Get` returns the header as a string.

## Findings

| source | as written | input that shows it | evidently intended | confidence | as-written member | corrected member |
|---|---|---|---|---|---|---|
| services/crypto_service.go:116-131 | FetchKey turns any FindOne error into nil, so EncryptUserFile treats a failed lookup as "no key". It draws a fresh key and seals the file under it. StoreKey then finds the existing record and skips the insert, so the fresh key is stored nowhere. | store holds Alice's record; FindOne fails once (timeout) during her upload; CountDocuments works | a failed lookup aborts the upload with an error, so every file is sealed under the stored key | not executed | CryptoService.LookupFailureOrphansKey, OrphanedKey.UploadDuringLookupFailureIsUnreadable | CryptoService.EncryptUserFileChecked, CryptoService.CheckedRoundTrip |

=== FILE: auth.dfy ===
/** middlewares/auth.go: how the two authentication middlewares take a token
    out of the Authorization header and decide between answering the request
    themselves and passing it on. The authentication service that judges the
    token is an input: a function from token to verdict. */
module Auth {
  import opened Go

  const StatusUnauthorized: int := 401
  const StatusInternalServerError: int := 500
  const UnauthorizedAccess: string := "Unauthorized Access"

  /** Number of spaces at the front of s. */
  function LeadingSpaces(s: string): (n: nat)
    ensures n <= |s|
    ensures forall i :: 0 <= i < n ==> s[i] == ' '
    ensures n < |s| ==> s[n] != ' '
  {
    if s == [] || s[0] != ' ' then 0 else 1 + LeadingSpaces(s[1..])
  }

  /** Where the run of spaces at the end of s begins. */
  function TrailingStart(s: string): (m: nat)
    ensures m <= |s|
    ensures forall i :: m <= i < |s| ==> s[i] == ' '
    ensures m > 0 ==> s[m - 1] != ' '
  {
    if s == [] || s[|s| - 1] != ' ' then |s| else TrailingStart(s[..|s| - 1])
  }

  /** strings.Trim(s, " "): s without its leading and trailing spaces. The
      result is the part of s after its leading spaces, everything outside
      it is a space, and it neither starts nor ends with one. */
  function Trim(s: string): (r: string)
    ensures r == [] || (r[0] != ' ' && r[|r| - 1] != ' ')
    ensures LeadingSpaces(s) + |r| <= |s| && r == s[LeadingSpaces(s)..LeadingSpaces(s) + |r|]
    ensures forall i :: 0 <= i < |s| && !(LeadingSpaces(s) <= i < LeadingSpaces(s) + |r|) ==> s[i] == ' '
  {
    var n := LeadingSpaces(s);
    if n == |s| then []
    else
      var m := TrailingStart(s);
      assert n < m;
      s[n..m]
  }

  /** A trimmed string is its own trim. */
  lemma TrimIsIdempotent(s: string)
    ensures Trim(Trim(s)) == Trim(s)
  {
    var r := Trim(s);
    assert LeadingSpaces(r) == 0;
  }

  /** strings.Split(s, " "): the pieces between single spaces. An empty
      string gives one empty piece, and adjacent spaces give empty pieces. */
  function Split(s: string): (parts: seq<string>)
    decreases |s|
    ensures |parts| >= 1
  {
    var n := IndexByte(s, ' ');
    if n == |s| then [s]
    else [s[..n]] + Split(s[n + 1..])
  }

  /** Split gives more than one piece exactly when there is a space. */
  lemma SplitsIffSpace(s: string)
    ensures |Split(s)| >= 2 <==> ' ' in s
  {
    var n := IndexByte(s, ' ');
    if n < |s| {
      assert s[n] == ' ';
    }
  }

  /** strings.Join(parts, " "). */
  function Join(parts: seq<string>): string
    requires |parts| >= 1
  {
    if |parts| == 1 then parts[0] else parts[0] + " " + Join(parts[1..])
  }

  /** s is its part before position n, the character at n, and the rest. */
  lemma CutAt(s: string, n: nat)
    requires n < |s|
    ensures s == s[..n] + [s[n]] + s[n + 1..]
  {
    assert s == s[..n] + s[n..];
    assert s[n..] == [s[n]] + s[n + 1..];
  }

  /** Joining the pieces with spaces gives back the string. */
  lemma {:induction false} JoinSplit(s: string)
    decreases |s|
    ensures Join(Split(s)) == s
  {
    var n := IndexByte(s, ' ');
    if n < |s| {
      var rest := s[n + 1..];
      JoinSplit(rest);
      assert Join(Split(s)) == s[..n] + " " + Join(Split(rest)) by {
        var parts := Split(s);
        assert parts == [s[..n]] + Split(rest);
        assert parts[1..] == Split(rest);
      }
      assert s == s[..n] + " " + rest by {
        CutAt(s, n);
      }
    } else {
      assert Split(s) == [s];
    }
  }

  /** Splitting a join of space-free pieces gives back the pieces. */
  lemma {:induction false} SplitJoin(parts: seq<string>)
    requires |parts| >= 1
    requires forall i :: 0 <= i < |parts| ==> ' ' !in parts[i]
    ensures Split(Join(parts)) == parts
  {
    var s := Join(parts);
    if |parts| == 1 {
      assert IndexByte(s, ' ') == |s|;
    } else {
      var p := parts[0];
      assert s == p + " " + Join(parts[1..]);
      assert s[..|p|] == p;
      IndexByteAt(s, ' ', |p|);
      assert s[|p| + 1..] == Join(parts[1..]);
      SplitJoin(parts[1..]);
    }
  }

  /** strings.Split(h, " ")[1], defined when h holds a space; it leaves out
      at least that space. */
  function Token(h: string): (t: string)
    requires ' ' in h
    ensures |t| < |h|
  {
    SplitsIffSpace(h);
    SplitAfterFirst(h);
    var n := IndexByte(h, ' ');
    assert n < |h| by {
      var k :| 0 <= k < |h| && h[k] == ' ';
    }
    SplitAfterFirst(h[n + 1..]);
    assert Split(h)[1] == Split(h[n + 1..])[0];
    Split(h)[1]
  }

  /** The token is the text after the first space, up to the next space or
      the end: the word in front of it is never looked at. */
  lemma TokenFollowsFirstSpace(h: string)
    requires ' ' in h
    ensures var n := IndexByte(h, ' '); var t := Token(h);
      && n < |h|
      && n + 1 + |t| <= |h|
      && t == h[n + 1..n + 1 + |t|]
      && ' ' !in t
      && (n + 1 + |t| == |h| || h[n + 1 + |t|] == ' ')
  {
    var n := IndexByte(h, ' ');
    assert n < |h| by {
      var k :| 0 <= k < |h| && h[k] == ' ';
    }
    var rest := h[n + 1..];
    var m := IndexByte(rest, ' ');
    assert Token(h) == rest[..m] by {
      SplitsIffSpace(h);
      SplitAfterFirst(h);
      assert Token(h) == Split(h)[1..][0];
    }
    assert rest[..m] == h[n + 1..n + 1 + m];
    assert ' ' !in rest[..m] by {
      assert forall j :: 0 <= j < m ==> rest[..m][j] == rest[j];
    }
  }

  /** The first piece runs up to the first space, and the other pieces are
      the split of what follows it. */
  lemma SplitAfterFirst(s: string)
    ensures var n := IndexByte(s, ' ');
      && Split(s)[0] == s[..n]
      && (n < |s| ==> Split(s)[1..] == Split(s[n + 1..]))
  {
  }

  /** What the authentication service says about a token. */
  datatype Verdict<D> = Verdict(ok: bool, data: D, err: Option<string>)

  /** Body of a response the middleware sends itself. */
  datatype Body = Json(code: int, error: string) | Text(text: string)

  /** The middleware either answers the request or calls the next handler
      with the locals it set. */
  datatype Response = Reply(status: int, body: Body) | Next(locals: map<string, string>)

  /** The outcome, together with the token the service was asked about
      (None when it was not called). */
  datatype Handled = Handled(result: Res<Response>, asked: Option<string>)

  /** The decision both middlewares share: trim the header, reject one
      shorter than two bytes (Go's len counts the bytes of the UTF-8
      encoding), take element 1 of the split as the token, ask the service, and
      turn its verdict into a reply or a call of the next handler. */
  function Authorize<D>(header: string, service: string -> Verdict<D>, locals: D -> map<string, string>, missing: string): (r: Handled)
    ensures var h := Trim(header);
      && (ByteLen(h) < 2 ==> r == Handled(Ok(Reply(StatusUnauthorized, Json(StatusUnauthorized, missing))), None))
      && (ByteLen(h) >= 2 && ' ' !in h ==> r == Handled(Panic(IndexOutOfRange), None))
      && (ByteLen(h) >= 2 && ' ' in h ==> r.asked == Some(Token(h)))
    ensures r.asked.Some? ==>
      var v := service(r.asked.value);
      && (v.err.Some? ==> r.result == Ok(Reply(StatusInternalServerError, Text(v.err.value))))
      && (v.err.None? && !v.ok ==> r.result == Ok(Reply(StatusUnauthorized, Text(UnauthorizedAccess))))
      && (v.err.None? && v.ok ==> r.result == Ok(Next(locals(v.data))))
    ensures r.result.Ok? && r.result.value.Next? <==> r.asked.Some? && service(r.asked.value).err.None? && service(r.asked.value).ok
  {
    var h := Trim(header);
    if ByteLen(h) < 2 then
      Handled(Ok(Reply(StatusUnauthorized, Json(StatusUnauthorized, missing))), None)
    else if ' ' !in h then
      Handled(Panic(IndexOutOfRange), None)
    else
      var token := Token(h);
      var v := service(token);
      if v.err.Some? then Handled(Ok(Reply(StatusInternalServerError, Text(v.err.value))), Some(token))
      else if !v.ok then Handled(Ok(Reply(StatusUnauthorized, Text(UnauthorizedAccess))), Some(token))
      else Handled(Ok(Next(locals(v.data))), Some(token))
  }

  /** What the JWT validation endpoint reports about a user. */
  datatype JwtData = JwtData(email: string, userUid: string)

  /** What Hydra's token introspection reports. */
  datatype Introspection = Introspection(clientId: string, scope: string, sub: string)

  /** ValidateJwtToken: on success the next handler sees the user's email
      and UID. */
  function ValidateJwtToken(header: string, validateJwt: string -> Verdict<JwtData>): (r: Handled)
    ensures r.result.Ok? && r.result.value.Next? ==>
      && r.asked.Some?
      && var d := validateJwt(r.asked.value).data;
        r.result.value.locals == map["email" := d.email, "userUid" := d.userUid]
    ensures ByteLen(Trim(header)) < 2 ==> r.result == Ok(Reply(StatusUnauthorized, Json(StatusUnauthorized, "No JWT token provided")))
  {
    Authorize(header, validateJwt, (d: JwtData) => map["email" := d.email, "userUid" := d.userUid], "No JWT token provided")
  }

  /** IntrospectAccessToken: on success the next handler sees the client,
      the scopes, and the token's subject as the email. */
  function IntrospectAccessToken(header: string, introspect: string -> Verdict<Introspection>): (r: Handled)
    ensures r.result.Ok? && r.result.value.Next? ==>
      && r.asked.Some?
      && var d := introspect(r.asked.value).data;
        r.result.value.locals == map["clientId" := d.clientId, "scopes" := d.scope, "email" := d.sub]
    ensures ByteLen(Trim(header)) < 2 ==> r.result == Ok(Reply(StatusUnauthorized, Json(StatusUnauthorized, "No access token provided")))
  {
    Authorize(header, introspect, (d: Introspection) => map["clientId" := d.clientId, "scopes" := d.scope, "email" := d.sub], "No access token provided")
  }

  /** Any space-free first word is accepted in place of "Bearer": the service
      is asked about the word after it. */
  lemma SchemeIsNotChecked<D>(scheme: string, token: string, service: string -> Verdict<D>, locals: D -> map<string, string>, missing: string)
    requires scheme != [] && ' ' !in scheme
    requires token != [] && ' ' !in token
    ensures Authorize(scheme + " " + token, service, locals, missing).asked == Some(token)
  {
    var header := scheme + " " + token;
    assert Trim(header) == header by {
      assert LeadingSpaces(header) == 0 by { assert header[0] == scheme[0]; }
      assert header[|header| - 1] == token[|token| - 1];
    }
    SplitJoin([scheme, token]);
    assert Join([scheme, token]) == header;
  }

  /** Two spaces after the scheme make the token empty, and the service is
      asked about "". */
  lemma DoubleSpaceAsksAboutEmptyToken<D>(service: string -> Verdict<D>, locals: D -> map<string, string>, missing: string)
    ensures Authorize("Bearer  t", service, locals, missing).asked == Some("")
  {
    var header := "Bearer  t";
    assert Trim(header) == header by {
      assert LeadingSpaces(header) == 0;
      assert TrailingStart(header) == |header|;
    }
    IndexByteAt(header, ' ', 6);
    TokenFollowsFirstSpace(header);
    assert header[7] == ' ';
  }

  /** "Bearer " trims to "Bearer", which has no space: the middleware panics
      before the service is asked. */
  lemma SchemeAlonePanics<D>(service: string -> Verdict<D>, locals: D -> map<string, string>, missing: string)
    ensures Authorize("Bearer ", service, locals, missing) == Handled(Panic(IndexOutOfRange), None)
  {
    var header := "Bearer ";
    assert LeadingSpaces(header) == 0;
    assert TrailingStart(header[..6]) == 6;
    assert Trim(header) == "Bearer";
  }

  /** The length check counts bytes: "é" is one character but two bytes, so
      it passes the check, and with no space in it the middleware panics. */
  lemma NonAsciiCharPanics<D>(service: string -> Verdict<D>, locals: D -> map<string, string>, missing: string)
    ensures ByteLen("\U{e9}") == 2
    ensures Authorize("\U{e9}", service, locals, missing) == Handled(Panic(IndexOutOfRange), None)
  {
    var header := "\U{e9}";
    assert LeadingSpaces(header) == 0;
    assert TrailingStart(header) == 1;
    assert Trim(header) == header;
    assert ByteLen(header) == Utf8Width(header[0]) + ByteLen(header[1..]);
  }
}

=== FILE: crypto_service.dfy ===
/** services/crypto_service.go: envelope encryption. Each user email owns one
    24-byte data key, stored as hex(AESEncrypt(masterKey, userKey)); files are
    sealed under the user's key as nonce ‖ ciphertext ‖ tag.

    Every call that can change the store returns the new store inside Ok. A
    call that ends any other way has not written: in the source each panic,
    error and log.Fatal comes before the only InsertOne. */
module CryptoService {
  import opened Go
  import opened Hex
  import opened Gcm
  import opened KeyStore
  import KeyFile

  /** The service: its master key and the AES-GCM it calls. */
  datatype Service = Service(secret: seq<byte>, aead: Aead)

  /** The random draws one EncryptUserFile may make, in the order it uses
      them: a fresh user key, the nonce that wraps it, the file nonce. */
  datatype Coins = Coins(key: Draw<KeyFile.Key>, wrapNonce: Draw<Nonce>, fileNonce: Draw<Nonce>)

  /** A result together with the store after the call. */
  datatype Stored<+T> = Stored(value: T, store: Collection)

  // ---------------------------------------------------------------------
  // AES-GCM wrappers

  /** AESEncrypt: a fresh nonce followed by the sealed data. gcm.Seal
      panics on data longer than MaxSealSize. */
  function AESEncrypt(aead: Aead, key: seq<byte>, data: seq<byte>, nonce: Draw<Nonce>): (r: Res<seq<byte>>)
    ensures r.Ok? || r.Panic?
    ensures r.Ok? <==> ValidKeyLength(key) && nonce.Drew? && |data| <= MaxSealSize
    ensures !ValidKeyLength(key) ==> r == Panic(InvalidKeySize)
    ensures ValidKeyLength(key) && nonce.DrawFailed? ==> r == Panic(RandomnessFailed)
    ensures ValidKeyLength(key) && nonce.Drew? && |data| > MaxSealSize ==> r == Panic(MessageTooLarge)
    ensures r.Ok? ==> |r.value| >= NonceSize && r.value[..NonceSize] == nonce.value
    ensures r.Ok? && Sound(aead) ==> |r.value| == NonceSize + |data| + TagSize
  {
    if !ValidKeyLength(key) then Panic(InvalidKeySize)
    else
      match nonce
      case Drew(n) => if |data| > MaxSealSize then Panic(MessageTooLarge) else Ok(n + aead.seal(key, n, data))
      case DrawFailed => Panic(RandomnessFailed)
  }

  /** AESDecrypt: the first NonceSize bytes are the nonce, the rest is
      ciphertext ‖ tag. Every failure panics; no plaintext leaves unless
      the tag verified. */
  function AESDecrypt(aead: Aead, key: seq<byte>, data: seq<byte>): (r: Res<seq<byte>>)
    ensures r.Ok? || r.Panic?
    ensures !ValidKeyLength(key) ==> r == Panic(InvalidKeySize)
    ensures ValidKeyLength(key) && |data| < NonceSize ==> r == Panic(SliceOutOfRange)
    ensures ValidKeyLength(key) && NonceSize <= |data| < NonceSize + TagSize ==> r == Panic(MessageAuthFailed)
    ensures ValidKeyLength(key) && |data| > NonceSize + MaxSealSize + TagSize ==> r == Panic(MessageAuthFailed)
    ensures r.Ok? ==>
      && |data| >= NonceSize + TagSize
      && aead.open(key, data[..NonceSize], data[NonceSize..]) == Some(r.value)
  {
    if !ValidKeyLength(key) then Panic(InvalidKeySize)
    else if |data| < NonceSize then Panic(SliceOutOfRange)
    else
      match Open(aead, key, data[..NonceSize], data[NonceSize..])
      case Some(plain) => Ok(plain)
      case None => Panic(MessageAuthFailed)
  }

  /** Under a valid key AESEncrypt seals all data up to the GCM limit, and
      decrypting what it produced gives the data back. */
  lemma AESRoundTrip(aead: Aead, key: seq<byte>, data: seq<byte>, nonce: Nonce)
    requires Sound(aead) && ValidKeyLength(key)
    ensures var blob := AESEncrypt(aead, key, data, Drew(nonce));
      && (blob.Ok? <==> |data| <= MaxSealSize)
      && (blob.Ok? ==> AESDecrypt(aead, key, blob.value) == Ok(data))
  {
    var e := AESEncrypt(aead, key, data, Drew(nonce));
    if e.Ok? {
      var blob := e.value;
      assert blob[..NonceSize] == nonce;
      assert blob[NonceSize..] == aead.seal(key, nonce, data);
    }
  }

  // ---------------------------------------------------------------------
  // Key lookup

  /** FetchKey: the hex-decoded wrapped key of email's first record. Any
      FindOne error reads as "no key"; text that is not hex panics. */
  function FetchKey(store: Collection, faults: Faults, email: string): (r: Res<Option<seq<byte>>>)
    ensures r.Ok? || r == Panic(InvalidHex)
    ensures r == Ok(None) <==> faults.findFails || NoRecord(store, email)
    ensures var found := FindOne(store, email, faults.findFails);
      && (r.Panic? <==> found.Found? && !ValidHex(found.key))
      && (r.Ok? && r.value.Some? ==> EncodeToString(r.value.value) == Lower(found.key))
  {
    match FindOne(store, email, faults.findFails)
    case Found(text) =>
      var d := DecodeString(text);
      if d.failed then Panic(InvalidHex)
      else
        EncodeDecode(text);
        Ok(Some(d.bytes))
    case _ => Ok(None)
  }

  /** FetchDecryptedKey: FetchKey's bytes unwrapped under the master key.
      gcm.Open returns a nil slice for an empty plaintext, so an unwrapped
      key of length zero reads as "no key" too. */
  function FetchDecryptedKey(svc: Service, store: Collection, faults: Faults, email: string): (r: Res<Option<seq<byte>>>)
    ensures r.Ok? || r.Panic?
    ensures FetchKey(store, faults, email) == Ok(None) ==> r == Ok(None)
    ensures FetchKey(store, faults, email).Panic? ==> r == Panic(InvalidHex)
    ensures var f := FetchKey(store, faults, email);
      f.Ok? && f.value.Some? ==>
        var unwrapped := AESDecrypt(svc.aead, svc.secret, f.value.value);
        && (r == Ok(None) <==> unwrapped == Ok([]))
        && (r.Panic? <==> unwrapped.Panic?)
        && (r.Ok? && r.value.Some? ==> unwrapped == Ok(r.value.value) && |r.value.value| > 0)
  {
    var fetched := FetchKey(store, faults, email);
    if !fetched.Ok? then fetched.PropagateFailure()
    else if fetched.value.None? then Ok(None)
    else
      var unwrapped := AESDecrypt(svc.aead, svc.secret, fetched.value.value);
      if !unwrapped.Ok? then unwrapped.PropagateFailure()
      else if |unwrapped.value| == 0 then Ok(None)
      else Ok(Some(unwrapped.value))
  }

  // ---------------------------------------------------------------------
  // Key creation

  /** The two outcomes of IsEmailExist. */
  datatype Existence = Existence(isExist: bool, failed: bool)

  /** IsEmailExist: true when the count is positive and came without an
      error. */
  function IsEmailExist(store: Collection, faults: Faults, email: string): (r: Existence)
    ensures r.failed == faults.countFails
    ensures r.isExist <==> !faults.countFails && !NoRecord(store, email)
  {
    var reply := CountDocuments(store, email, faults.countFails);
    Existence(reply.count > 0 && !reply.failed, reply.failed)
  }

  /** StoreKey: insert (email, key) unless email already has a record, in
      which case nothing is written and no error is reported. */
  function StoreKey(store: Collection, faults: Faults, email: string, key: string): (r: Res<Collection>)
    ensures faults.countFails ==> r == Panic(CountFailed)
    ensures !faults.countFails && !NoRecord(store, email) ==> r == Ok(store)
    ensures !faults.countFails && NoRecord(store, email) ==>
      r == (if faults.insertFails then Err(InsertFailed) else Ok(store + [UserKey(email, key)]))
    ensures r.Ok? && AtMostOnePerEmail(store) ==> AtMostOnePerEmail(r.value)
  {
    var existence := IsEmailExist(store, faults, email);
    if existence.failed then Panic(CountFailed)
    else if existence.isExist then Ok(store)
    else
      var inserted := InsertOne(store, UserKey(email, key), faults.insertFails);
      if inserted.Ok? then
        AppendFirstRecord(store, UserKey(email, key));
        inserted
      else inserted
  }

  /** The record GenerateUserKeyWithStoring writes for key under nonce. */
  function WrappedRecord(svc: Service, email: string, key: seq<byte>, nonce: Nonce): (r: UserKey)
    ensures r.email == email && ValidHex(r.key)
  {
    UserKey(email, EncodeToString(nonce + svc.aead.seal(svc.secret, nonce, key)))
  }

  /** GenerateUserKeyWithStoring: draw a key, wrap it under the master key,
      store its hex, return the raw key (even when StoreKey skipped the
      insert). */
  function GenerateUserKeyWithStoring(svc: Service, store: Collection, faults: Faults, email: string,
                                      keyDraw: Draw<KeyFile.Key>, nonce: Draw<Nonce>): (r: Res<Stored<seq<byte>>>)
    ensures r.Ok? <==>
      && keyDraw.Drew? && ValidKeyLength(svc.secret) && nonce.Drew? && !faults.countFails
      && (NoRecord(store, email) ==> !faults.insertFails)
    ensures keyDraw.DrawFailed? ==> r == Exit(RandomnessUnavailable)
    ensures keyDraw.Drew? && !ValidKeyLength(svc.secret) ==> r == Panic(InvalidKeySize)
    ensures keyDraw.Drew? && ValidKeyLength(svc.secret) && nonce.DrawFailed? ==> r == Panic(RandomnessFailed)
    ensures keyDraw.Drew? && ValidKeyLength(svc.secret) && nonce.Drew? && faults.countFails ==> r == Panic(CountFailed)
    ensures keyDraw.Drew? && ValidKeyLength(svc.secret) && nonce.Drew? && !faults.countFails ==>
      (NoRecord(store, email) && faults.insertFails ==> r == Err(InsertFailed))
    ensures r.Ok? ==> r.value.value == keyDraw.value && |r.value.value| == KeyFile.KeySize
    ensures r.Ok? ==>
      r.value.store == (if NoRecord(store, email) then store + [WrappedRecord(svc, email, r.value.value, nonce.value)] else store)
    ensures r.Ok? && AtMostOnePerEmail(store) ==> AtMostOnePerEmail(r.value.store)
  {
    var key := KeyFile.GenerateKey(keyDraw);
    if !key.Ok? then key.PropagateFailure()
    else
      var wrapped := AESEncrypt(svc.aead, svc.secret, key.value, nonce);
      if !wrapped.Ok? then wrapped.PropagateFailure()
      else
        var stored := StoreKey(store, faults, email, EncodeToString(wrapped.value));
        if !stored.Ok? then stored.PropagateFailure()
        else Ok(Stored(key.value, stored.value))
  }

  // ---------------------------------------------------------------------
  // File encryption and decryption

  /** AESEncrypt under key, paired with the store it leaves. */
  function SealWith(svc: Service, key: seq<byte>, file: seq<byte>, nonce: Draw<Nonce>, store: Collection): Res<Stored<seq<byte>>> {
    var sealed := AESEncrypt(svc.aead, key, file, nonce);
    if sealed.Ok? then Ok(Stored(sealed.value, store)) else sealed.PropagateFailure()
  }

  /** EncryptUserFile: seal the file under the user's key, creating and
      storing the key first if the lookup came back nil. */
  function EncryptUserFile(svc: Service, store: Collection, faults: Faults, email: string,
                           file: seq<byte>, coins: Coins): (r: Res<Stored<seq<byte>>>)
    ensures var f := FetchDecryptedKey(svc, store, faults, email);
      && (f.Panic? ==> r == f.PropagateFailure())
      && (f.Ok? && f.value.Some? ==>
            var sealed := AESEncrypt(svc.aead, f.value.value, file, coins.fileNonce);
            r == (if sealed.Ok? then Ok(Stored(sealed.value, store)) else sealed.PropagateFailure()))
      && (f == Ok(None) ==>
            var g := GenerateUserKeyWithStoring(svc, store, faults, email, coins.key, coins.wrapNonce);
            && (!g.Ok? ==> r == g.PropagateFailure())
            && (g.Ok? ==> r == SealWith(svc, g.value.value, file, coins.fileNonce, g.value.store)))
    ensures r.Ok? ==> coins.fileNonce.Drew? && |r.value.value| >= NonceSize && r.value.value[..NonceSize] == coins.fileNonce.value
    ensures r.Ok? && Sound(svc.aead) ==> |r.value.value| == NonceSize + |file| + TagSize
    ensures r.Ok? ==>
      || r.value.store == store
      || (&& NoRecord(store, email)
          && |r.value.store| == |store| + 1
          && r.value.store[..|store|] == store
          && r.value.store[|store|].email == email)
    ensures r.Ok? && AtMostOnePerEmail(store) ==> AtMostOnePerEmail(r.value.store)
  {
    var found := FetchDecryptedKey(svc, store, faults, email);
    if !found.Ok? then found.PropagateFailure()
    else if found.value.Some? then
      SealWith(svc, found.value.value, file, coins.fileNonce, store)
    else
      var generated := GenerateUserKeyWithStoring(svc, store, faults, email, coins.key, coins.wrapNonce);
      if !generated.Ok? then generated.PropagateFailure()
      else SealWith(svc, generated.value.value, file, coins.fileNonce, generated.value.store)
  }

  /** DecryptUserFile: open the file under the user's key; nil (None) when
      no key comes back. It only reads the store. */
  function DecryptUserFile(svc: Service, store: Collection, faults: Faults, email: string, file: seq<byte>): (r: Res<Option<seq<byte>>>)
    ensures r.Ok? || r.Panic?
    ensures r == Ok(None) <==> FetchDecryptedKey(svc, store, faults, email) == Ok(None)
    ensures faults.findFails || NoRecord(store, email) ==> r == Ok(None)
    ensures r.Ok? && r.value.Some? ==>
      && FetchDecryptedKey(svc, store, faults, email).Ok?
      && FetchDecryptedKey(svc, store, faults, email).value.Some?
      && var key := FetchDecryptedKey(svc, store, faults, email).value.value;
      && |file| >= NonceSize + TagSize
      && svc.aead.open(key, file[..NonceSize], file[NonceSize..]) == Some(r.value.value)
  {
    var found := FetchDecryptedKey(svc, store, faults, email);
    if !found.Ok? then found.PropagateFailure()
    else if found.value.None? then Ok(None)
    else
      var plain := AESDecrypt(svc.aead, found.value.value, file);
      if plain.Ok? then Ok(Some(plain.value)) else plain.PropagateFailure()
  }

  // ---------------------------------------------------------------------
  // Properties across calls

  /** The record text of a key the service wrapped itself: hex that decodes
      to a wrapped key, which unwraps under the master key to a full-length
      user key. */
  predicate WrapsUserKey(svc: Service, text: string) {
    && ValidHex(text)
    && var unwrapped := AESDecrypt(svc.aead, svc.secret, DecodeString(text).bytes);
       unwrapped.Ok? && |unwrapped.value| == KeyFile.KeySize
  }

  /** Every record of the store is one the service could have written. */
  predicate WellFormedStore(svc: Service, store: Collection) {
    forall i :: 0 <= i < |store| ==> WrapsUserKey(svc, store[i].key)
  }

  /** On a well-formed store a working lookup never panics: a user with a
      record gets a 24-byte key back. */
  lemma WellFormedLookup(svc: Service, store: Collection, faults: Faults, email: string)
    requires WellFormedStore(svc, store) && !faults.findFails
    ensures var f := FetchDecryptedKey(svc, store, faults, email);
      && f.Ok?
      && (f.value.None? <==> NoRecord(store, email))
      && (f.value.Some? ==> |f.value.value| == KeyFile.KeySize)
  {
    if !NoRecord(store, email) {
      var i := FirstMatch(store, email).value;
      assert WrapsUserKey(svc, store[i].key);
    }
  }

  /** A record written by GenerateUserKeyWithStoring unwraps to its key. */
  lemma WrappedRecordUnwraps(svc: Service, email: string, key: seq<byte>, nonce: Nonce)
    requires Sound(svc.aead) && ValidKeyLength(svc.secret) && |key| == KeyFile.KeySize
    ensures var text := WrappedRecord(svc, email, key, nonce).key;
      && WrapsUserKey(svc, text)
      && AESDecrypt(svc.aead, svc.secret, DecodeString(text).bytes) == Ok(key)
  {
    var w := AESEncrypt(svc.aead, svc.secret, key, Drew(nonce)).value;
    assert w == nonce + svc.aead.seal(svc.secret, nonce, key);
    DecodeEncode(w);
    AESRoundTrip(svc.aead, svc.secret, key, nonce);
  }

  /** Key stability: once GenerateUserKeyWithStoring has inserted its
      record, a later working lookup returns the very key it returned. */
  lemma KeyStability(svc: Service, store: Collection, faults: Faults, email: string,
                     keyDraw: Draw<KeyFile.Key>, nonce: Draw<Nonce>, later: Faults)
    requires Sound(svc.aead) && ValidKeyLength(svc.secret)
    requires GenerateUserKeyWithStoring(svc, store, faults, email, keyDraw, nonce).Ok?
    requires GenerateUserKeyWithStoring(svc, store, faults, email, keyDraw, nonce).value.store != store
    requires !later.findFails
    ensures var g := GenerateUserKeyWithStoring(svc, store, faults, email, keyDraw, nonce).value;
      FetchDecryptedKey(svc, g.store, later, email) == Ok(Some(g.value))
  {
    var g := GenerateUserKeyWithStoring(svc, store, faults, email, keyDraw, nonce).value;
    var record := WrappedRecord(svc, email, g.value, nonce.value);
    assert g.store == store + [record];
    AppendFirstRecord(store, record);
    WrappedRecordUnwraps(svc, email, g.value, nonce.value);
  }

  /** EncryptUserFile keeps the store well formed. */
  lemma EncryptKeepsStoreWellFormed(svc: Service, store: Collection, faults: Faults, email: string,
                                    file: seq<byte>, coins: Coins)
    requires Sound(svc.aead) && ValidKeyLength(svc.secret) && WellFormedStore(svc, store)
    requires EncryptUserFile(svc, store, faults, email, file, coins).Ok?
    ensures WellFormedStore(svc, EncryptUserFile(svc, store, faults, email, file, coins).value.store)
  {
    var found := FetchDecryptedKey(svc, store, faults, email);
    if found.value.None? {
      var g := GenerateUserKeyWithStoring(svc, store, faults, email, coins.key, coins.wrapNonce).value;
      if NoRecord(store, email) {
        var record := WrappedRecord(svc, email, g.value, coins.wrapNonce.value);
        WrappedRecordUnwraps(svc, email, g.value, coins.wrapNonce.value);
        assert g.store == store + [record];
      }
    }
  }

  /** Round trip: a file EncryptUserFile sealed decrypts, for the same
      user, to the file, provided that the lookup at encryption time did
      not fail while the user already had a record. */
  lemma EncryptDecryptRoundTrip(svc: Service, store: Collection, faults: Faults, email: string,
                                file: seq<byte>, coins: Coins, later: Faults)
    requires Sound(svc.aead) && ValidKeyLength(svc.secret) && WellFormedStore(svc, store)
    requires !faults.findFails || NoRecord(store, email)
    requires !later.findFails
    ensures var r := EncryptUserFile(svc, store, faults, email, file, coins);
      r.Ok? ==> DecryptUserFile(svc, r.value.store, later, email, r.value.value) == Ok(Some(file))
  {
    var found := FetchDecryptedKey(svc, store, faults, email);
    if !EncryptUserFile(svc, store, faults, email, file, coins).Ok? {
    } else if found.value.Some? {
      assert !faults.findFails;
      assert FetchDecryptedKey(svc, store, later, email) == found;
      AESRoundTrip(svc.aead, found.value.value, file, coins.fileNonce.value);
    } else {
      if !faults.findFails {
        WellFormedLookup(svc, store, faults, email);
      }
      assert NoRecord(store, email);
      var g := GenerateUserKeyWithStoring(svc, store, faults, email, coins.key, coins.wrapNonce).value;
      assert g.store == store + [WrappedRecord(svc, email, g.value, coins.wrapNonce.value)];
      KeyStability(svc, store, faults, email, coins.key, coins.wrapNonce, later);
      AESRoundTrip(svc.aead, g.value, file, coins.fileNonce.value);
    }
  }

  /** As written: when FindOne fails for a user who already has a record,
      EncryptUserFile seals the file under the freshly drawn key and leaves
      the store unchanged, so that key is kept nowhere. */
  lemma LookupFailureOrphansKey(svc: Service, store: Collection, faults: Faults, email: string,
                                file: seq<byte>, coins: Coins)
    requires faults.findFails && !faults.countFails && !NoRecord(store, email)
    requires ValidKeyLength(svc.secret) && coins.key.Drew? && coins.wrapNonce.Drew? && coins.fileNonce.Drew?
    requires |file| <= MaxSealSize
    ensures EncryptUserFile(svc, store, faults, email, file, coins)
         == Ok(Stored(coins.fileNonce.value + svc.aead.seal(coins.key.value, coins.fileNonce.value, file), store))
  {
  }

  // ---------------------------------------------------------------------
  // Corrected key resolution

  /** FetchDecryptedKey with a failed lookup reported as an error, so that
      it is never taken for "no key". */
  function FetchDecryptedKeyChecked(svc: Service, store: Collection, faults: Faults, email: string): (r: Res<Option<seq<byte>>>)
    ensures faults.findFails ==> r == Err(LookupFailed)
    ensures !faults.findFails ==> r == FetchDecryptedKey(svc, store, faults, email)
  {
    if faults.findFails then Err(LookupFailed) else FetchDecryptedKey(svc, store, faults, email)
  }

  /** EncryptUserFile over FetchDecryptedKeyChecked: a key is generated only
      when the lookup positively found no key. */
  function EncryptUserFileChecked(svc: Service, store: Collection, faults: Faults, email: string,
                                  file: seq<byte>, coins: Coins): (r: Res<Stored<seq<byte>>>)
    ensures faults.findFails ==> r == Err(LookupFailed)
    ensures !faults.findFails ==> r == EncryptUserFile(svc, store, faults, email, file, coins)
    ensures r.Ok? ==> coins.fileNonce.Drew? && |r.value.value| >= NonceSize && r.value.value[..NonceSize] == coins.fileNonce.value
    ensures r.Ok? && Sound(svc.aead) ==> |r.value.value| == NonceSize + |file| + TagSize
    ensures r.Ok? && AtMostOnePerEmail(store) ==> AtMostOnePerEmail(r.value.store)
  {
    var found := FetchDecryptedKeyChecked(svc, store, faults, email);
    if !found.Ok? then found.PropagateFailure()
    else if found.value.Some? then
      SealWith(svc, found.value.value, file, coins.fileNonce, store)
    else
      var generated := GenerateUserKeyWithStoring(svc, store, faults, email, coins.key, coins.wrapNonce);
      if !generated.Ok? then generated.PropagateFailure()
      else SealWith(svc, generated.value.value, file, coins.fileNonce, generated.value.store)
  }

  /** A first upload with no faults, drawn coins, a valid master key and a
      file within the GCM limit succeeds, stores the user's wrapped key, and
      seals the file under that key; the corrected upload does the same. */
  lemma FirstUploadStoresKey(svc: Service, store: Collection, email: string, file: seq<byte>, coins: Coins)
    requires NoRecord(store, email) && ValidKeyLength(svc.secret) && |file| <= MaxSealSize
    requires coins.key.Drew? && coins.wrapNonce.Drew? && coins.fileNonce.Drew?
    ensures var r := EncryptUserFile(svc, store, NoFaults, email, file, coins);
      && r.Ok?
      && r.value.store == store + [WrappedRecord(svc, email, coins.key.value, coins.wrapNonce.value)]
      && r.value.value == coins.fileNonce.value + svc.aead.seal(coins.key.value, coins.fileNonce.value, file)
    ensures EncryptUserFileChecked(svc, store, NoFaults, email, file, coins) == EncryptUserFile(svc, store, NoFaults, email, file, coins)
  {
    assert FetchDecryptedKey(svc, store, NoFaults, email) == Ok(None);
    var g := GenerateUserKeyWithStoring(svc, store, NoFaults, email, coins.key, coins.wrapNonce);
    assert g.Ok?;
  }

  /** The intended round trip, for every fault pattern: whatever
      EncryptUserFileChecked seals decrypts to the file for the same user. */
  lemma CheckedRoundTrip(svc: Service, store: Collection, faults: Faults, email: string,
                         file: seq<byte>, coins: Coins, later: Faults)
    requires Sound(svc.aead) && ValidKeyLength(svc.secret) && WellFormedStore(svc, store)
    requires EncryptUserFileChecked(svc, store, faults, email, file, coins).Ok?
    requires !later.findFails
    ensures var e := EncryptUserFileChecked(svc, store, faults, email, file, coins).value;
      && WellFormedStore(svc, e.store)
      && DecryptUserFile(svc, e.store, later, email, e.value) == Ok(Some(file))
  {
    assert EncryptUserFileChecked(svc, store, faults, email, file, coins)
        == EncryptUserFile(svc, store, faults, email, file, coins);
    EncryptDecryptRoundTrip(svc, store, faults, email, file, coins, later);
    EncryptKeepsStoreWellFormed(svc, store, faults, email, file, coins);
  }
}

=== FILE: gcm.dfy ===
/** AES-GCM as NIST SP 800-38D lays it out with a 96-bit nonce and a 128-bit
    tag. The block cipher and the GCM arithmetic are not modelled: an instance
    is a pair of uninterpreted functions, and the two facts the rest of the
    model relies on are stated by the predicate Sound and assumed by the
    lemmas that need them. */
module Gcm {
  import opened Go

  /** gcm.NonceSize() of the standard 96-bit nonce. */
  const NonceSize: nat := 12

  /** Length of the GCM authentication tag in bytes. */
  const TagSize: nat := 16

  /** The longest plaintext gcm.Seal accepts: 2^32 - 2 blocks of 16 bytes,
      the bound of section 5.2.1.1 of NIST SP 800-38D. */
  const MaxSealSize: nat := (0x1_0000_0000 - 2) * 16

  type Nonce = n: seq<byte> | |n| == NonceSize witness [0, 0, 0, 0, 0, 0, 0, 0, 0, 0, 0, 0]

  /** The key lengths aes.NewCipher accepts: AES-128, AES-192 and AES-256. */
  predicate ValidKeyLength(key: seq<byte>) {
    |key| == 16 || |key| == 24 || |key| == 32
  }

  /** Sealing (ciphertext followed by tag) and opening, under a key and a
      nonce, with no associated data. */
  datatype Aead = Aead(
    seal: (seq<byte>, Nonce, seq<byte>) -> seq<byte>,
    open: (seq<byte>, Nonce, seq<byte>) -> Option<seq<byte>>)

  /** The two properties of AES-GCM the model assumes: the sealed text is
      the plaintext length plus the tag, and opening it under the same key and
      nonce gives the plaintext back. */
  ghost predicate Sound(aead: Aead) {
    forall key, nonce, plain {:trigger aead.seal(key, nonce, plain)} ::
      ValidKeyLength(key) ==>
        && |aead.seal(key, nonce, plain)| == |plain| + TagSize
        && aead.open(key, nonce, aead.seal(key, nonce, plain)) == Some(plain)
  }

  /** gcm.Open: an input shorter than the tag, or longer than the longest
      sealed text, is refused before the tag is looked at. */
  function Open(aead: Aead, key: seq<byte>, nonce: Nonce, sealed: seq<byte>): (r: Option<seq<byte>>)
    ensures |sealed| < TagSize || |sealed| > MaxSealSize + TagSize ==> r.None?
    ensures r.Some? ==> aead.open(key, nonce, sealed) == r
  {
    if |sealed| < TagSize || |sealed| > MaxSealSize + TagSize then None else aead.open(key, nonce, sealed)
  }
}

=== FILE: go.dfy ===
/** The handful of Go runtime notions the model needs: bytes, nil-able values,
    draws from crypto/rand, and the ways a Go call can end (a value, a
    returned error, a panic, or log.Fatal ending the process). */
module Go {

  /** A Go `byte`. */
  type byte = b: int | 0 <= b < 256

  /** A value that may be nil. */
  datatype Option<+T> = None | Some(value: T)

  /** One read from crypto/rand: the bytes it produced, or a read error.
      Randomness is an input of the model, never computed. */
  datatype Draw<+T> = Drew(value: T) | DrawFailed

  /** Why a goroutine panicked. */
  datatype PanicReason =
    | InvalidKeySize     // aes.NewCipher: key length other than 16, 24 or 32
    | RandomnessFailed   // io.ReadFull(rand.Reader, nonce) returned an error
    | SliceOutOfRange    // data[:NonceSize] on a slice shorter than the nonce
    | IndexOutOfRange    // a write past a buffer, or Split(...)[1] on a one-element slice
    | MessageAuthFailed  // gcm.Open reported "message authentication failed"
    | MessageTooLarge    // gcm.Seal: plaintext longer than 2^32 - 2 blocks
    | InvalidHex         // hex.DecodeString reported an error
    | CountFailed        // IsEmailExist returned an error to StoreKey

  /** Why log.Fatal ended the process. */
  datatype ExitReason =
    | RandomnessUnavailable  // rand.Read failed in GenerateKey
    | NoHomeDir              // os.UserHomeDir failed
    | CreateFailed           // os.Create of the key file failed
    | WriteFailed            // writing the key file failed

  /** An error value returned to the caller. */
  datatype Error =
    | InsertFailed   // InsertOne returned an error
    | LookupFailed   // FindOne failed for a reason other than "no document"

  /** How a call ends. */
  datatype Res<+T> =
    | Ok(value: T)
    | Err(error: Error)
    | Panic(reason: PanicReason)
    | Exit(exit: ExitReason)
  {
    /** The same failure, passed on by a caller with another result type. */
    function PropagateFailure<U>(): (r: Res<U>)
      requires !Ok?
      ensures !r.Ok?
    {
      match this
      case Err(e) => Err(e)
      case Panic(p) => Panic(p)
      case Exit(x) => Exit(x)
    }
  }

  /** strings.IndexByte, with |s| standing for -1: the position of the first
      c in s, or |s| when there is none. */
  function IndexByte(s: string, c: char): (n: nat)
    ensures n <= |s|
    ensures forall j :: 0 <= j < n ==> s[j] != c
    ensures n < |s| ==> s[n] == c
  {
    IndexFrom(s, c, 0)
  }

  /** The position of the first c in s at or after from, or |s|. */
  function IndexFrom(s: string, c: char, from: nat): (n: nat)
    requires from <= |s|
    decreases |s| - from
    ensures from <= n <= |s|
    ensures forall j :: from <= j < n ==> s[j] != c
    ensures n < |s| ==> s[n] == c
  {
    if from == |s| || s[from] == c then from else IndexFrom(s, c, from + 1)
  }

  /** IndexByte finds the first occurrence and no other. */
  lemma IndexByteAt(s: string, c: char, n: nat)
    requires n < |s| && s[n] == c && c !in s[..n]
    ensures IndexByte(s, c) == n
  {
  }

  /** Bytes c takes in UTF-8, the encoding of a Go string. */
  function Utf8Width(c: char): (w: nat)
    ensures 1 <= w <= 4
    ensures w == 1 <==> (c as int) < 0x80
  {
    if (c as int) < 0x80 then 1
    else if (c as int) < 0x800 then 2
    else if (c as int) < 0x1_0000 then 3
    else 4
  }

  /** Go's len of a string: the bytes of its UTF-8 encoding, not its
      characters. */
  function ByteLen(s: string): (n: nat)
    ensures n >= |s|
    ensures n == |s| <==> forall i :: 0 <= i < |s| ==> (s[i] as int) < 0x80
  {
    if s == [] then 0
    else
      var n := Utf8Width(s[0]) + ByteLen(s[1..]);
      assert forall i :: 1 <= i < |s| ==> s[i] == s[1..][i - 1];
      n
  }

  /** A string is shorter than two bytes exactly when it is empty or one
      ASCII character. */
  lemma ShorterThanTwoBytes(s: string)
    ensures ByteLen(s) < 2 <==> s == [] || (|s| == 1 && (s[0] as int) < 0x80)
  {
  }
}

=== FILE: hex.dfy ===
/** Go's encoding/hex (Base16 of section 8 of RFC 4648): lower-case encoding,
    and decoding that accepts either case and stops at the first bad pair. */
module Hex {
  import opened Go

  predicate IsHexChar(c: char) {
    ('0' <= c <= '9') || ('a' <= c <= 'f') || ('A' <= c <= 'F')
  }

  predicate IsLowerHexChar(c: char) {
    ('0' <= c <= '9') || ('a' <= c <= 'f')
  }

  /** A string hex.DecodeString accepts without error. */
  predicate ValidHex(s: string) {
    |s| % 2 == 0 && forall i :: 0 <= i < |s| ==> IsHexChar(s[i])
  }

  /** The value of one hex digit. */
  function HexVal(c: char): (v: nat)
    requires IsHexChar(c)
    ensures v < 16
  {
    if '0' <= c <= '9' then c as int - '0' as int
    else if 'a' <= c <= 'f' then c as int - 'a' as int + 10
    else c as int - 'A' as int + 10
  }

  /** The lower-case digit for a nibble. */
  function Digit(v: nat): (c: char)
    requires v < 16
    ensures IsLowerHexChar(c) && HexVal(c) == v
  {
    if v < 10 then ('0' as int + v) as char else ('a' as int + v - 10) as char
  }

  /** 'A'..'F' folded to 'a'..'f'; every other character unchanged. */
  function LowerChar(c: char): char {
    if 'A' <= c <= 'F' then (c as int - 'A' as int + 'a' as int) as char else c
  }

  function Lower(s: string): (r: string)
    ensures |r| == |s|
    ensures forall i :: 0 <= i < |s| ==> r[i] == LowerChar(s[i])
  {
    if s == [] then [] else [LowerChar(s[0])] + Lower(s[1..])
  }

  /** The two characters EncodeToString writes for the byte at index i. */
  predicate EncodesAt(s: string, b: seq<byte>, i: nat)
    requires i < |b| && |s| == 2 * |b|
  {
    s[2 * i] == Digit(b[i] / 16) && s[2 * i + 1] == Digit(b[i] % 16)
  }

  /** hex.EncodeToString. */
  function EncodeToString(b: seq<byte>): (s: string)
    ensures |s| == 2 * |b|
    ensures forall i :: 0 <= i < |b| ==> EncodesAt(s, b, i)
    ensures forall i :: 0 <= i < |s| ==> IsLowerHexChar(s[i])
  {
    if b == [] then []
    else
      var rest := EncodeToString(b[1..]);
      var s := [Digit(b[0] / 16), Digit(b[0] % 16)] + rest;
      assert s[2..] == rest;
      forall i | 1 <= i < |b|
        ensures EncodesAt(s, b, i)
      {
        assert EncodesAt(rest, b[1..], i - 1);
        assert s[2 * i] == rest[2 * (i - 1)];
        assert s[2 * i + 1] == rest[2 * (i - 1) + 1];
      }
      forall i | 2 <= i < |s|
        ensures IsLowerHexChar(s[i])
      {
        assert s[i] == rest[i - 2];
      }
      s
  }

  /** The i-th pair of characters of s is two hex digits. */
  predicate PairOk(s: string, i: nat) {
    2 * i + 1 < |s| && IsHexChar(s[2 * i]) && IsHexChar(s[2 * i + 1])
  }

  /** The byte the i-th pair of hex digits stands for. */
  function PairVal(s: string, i: nat): byte
    requires PairOk(s, i)
  {
    16 * HexVal(s[2 * i]) + HexVal(s[2 * i + 1])
  }

  lemma PairShift(s: string, i: nat)
    requires |s| >= 2
    ensures PairOk(s[2..], i) <==> PairOk(s, i + 1)
    ensures PairOk(s, i + 1) ==> PairVal(s[2..], i) == PairVal(s, i + 1)
  {
    if 2 * i + 1 < |s| - 2 {
      assert s[2..][2 * i] == s[2 * (i + 1)];
      assert s[2..][2 * i + 1] == s[2 * (i + 1) + 1];
    }
  }

  /** The bytes hex.Decode writes before it stops: one per leading pair of
      hex digits, up to the first pair holding a non-hex character. */
  function DecodedPairs(s: string): (b: seq<byte>)
    ensures |b| <= |s| / 2
    ensures forall i :: 0 <= i < |b| ==> PairOk(s, i) && b[i] == PairVal(s, i)
    ensures |b| < |s| / 2 ==> !PairOk(s, |b|)
  {
    if !PairOk(s, 0) then []
    else
      var rest := DecodedPairs(s[2..]);
      var b := [PairVal(s, 0)] + rest;
      forall i | 1 <= i < |b|
        ensures PairOk(s, i) && b[i] == PairVal(s, i)
      {
        PairShift(s, i - 1);
        assert b[i] == rest[i - 1];
      }
      PairShift(s, |rest|);
      b
  }

  /** What hex.DecodeString returns: the bytes decoded so far and whether an
      error was reported alongside them. */
  datatype Decoded = Decoded(bytes: seq<byte>, failed: bool)

  /** hex.DecodeString. */
  function DecodeString(s: string): (d: Decoded)
    ensures !d.failed <==> ValidHex(s)
    ensures !d.failed ==> |d.bytes| == |s| / 2
    ensures |d.bytes| <= |s| / 2
  {
    var b := DecodedPairs(s);
    if ValidHex(s) then
      assert |b| < |s| / 2 ==> PairOk(s, |b|);
      Decoded(b, false)
    else Decoded(b, true)
  }

  /** What hex.Decode(dst, src) leaves behind: the buffer after the writes,
      the count it returns and whether it returned an error. */
  datatype Written = Written(dst: seq<byte>, n: nat, failed: bool)

  /** hex.Decode into an existing buffer. The buffer is not grown: a valid
      pair beyond its end is a write out of range, which panics. */
  function DecodeInto(dst: seq<byte>, src: string): (r: Res<Written>)
    ensures r.Ok? || r == Panic(IndexOutOfRange)
    ensures r.Panic? <==> |DecodedPairs(src)| > |dst|
    ensures r.Ok? ==>
      && |r.value.dst| == |dst|
      && r.value.n == |DecodedPairs(src)|
      && r.value.dst[..r.value.n] == DecodedPairs(src)
      && r.value.dst[r.value.n..] == dst[r.value.n..]
      && (r.value.failed <==> !ValidHex(src))
  {
    var pairs := DecodedPairs(src);
    if |pairs| > |dst| then Panic(IndexOutOfRange)
    else Ok(Written(pairs + dst[|pairs|..], |pairs|, !ValidHex(src)))
  }

  /** Decoding what EncodeToString wrote gives back the bytes, with no error. */
  lemma {:induction false} DecodeEncode(b: seq<byte>)
    ensures DecodedPairs(EncodeToString(b)) == b
    ensures DecodeString(EncodeToString(b)) == Decoded(b, false)
  {
    var s := EncodeToString(b);
    if b != [] {
      DecodeEncode(b[1..]);
      var hi, lo := Digit(b[0] / 16), Digit(b[0] % 16);
      assert s == [hi, lo] + EncodeToString(b[1..]);
      assert s[2..] == EncodeToString(b[1..]);
      assert 16 * HexVal(hi) + HexVal(lo) == b[0];
      assert DecodedPairs(s) == [b[0]] + b[1..];
    }
  }

  /** Encoding what DecodeString accepted gives back the text, in lower case:
      the other direction of the round trip. */
  lemma {:induction false} EncodeDecode(s: string)
    requires ValidHex(s)
    ensures EncodeToString(DecodeString(s).bytes) == Lower(s)
  {
    if s != [] {
      var rest := s[2..];
      assert ValidHex(rest) by {
        assert forall i :: 0 <= i < |rest| ==> rest[i] == s[i + 2];
      }
      EncodeDecode(rest);
      var b := DecodedPairs(s);
      var hi, lo := HexVal(s[0]), HexVal(s[1]);
      assert b == [16 * hi + lo] + DecodedPairs(rest);
      assert (16 * hi + lo) / 16 == hi && (16 * hi + lo) % 16 == lo;
      DigitOfHexVal(s[0]);
      DigitOfHexVal(s[1]);
      assert b[1..] == DecodedPairs(rest);
      assert Lower(s) == [LowerChar(s[0])] + Lower(s[1..]);
      assert Lower(s[1..]) == [LowerChar(s[1])] + Lower(rest) by {
        assert s[1..][1..] == rest;
      }
    }
  }

  lemma DigitOfHexVal(c: char)
    requires IsHexChar(c)
    ensures Digit(HexVal(c)) == LowerChar(c)
  {
  }
}

=== FILE: ipfs_client.dfy ===
/** ipfs_client/client.go: the URIs the IPFS client requests. Both are plain
    concatenation; nothing is separated or percent-encoded. Go's map
    iteration order is unspecified, so it is an input: the sequence of keys
    in the order the loop met them. */
module IpfsClient {
  import opened Go

  const AddFileEndpoint: string := "add"
  const CatFileEndpoint: string := "cat"

  datatype Client = Client(apiServerUri: string, gatewayServerUri: string)

  /** NewClient keeps both URIs as given. */
  function NewClient(apiServerUri: string, gatewayServerUri: string): (c: Client)
    ensures c.apiServerUri == apiServerUri && c.gatewayServerUri == gatewayServerUri
  {
    Client(apiServerUri, gatewayServerUri)
  }

  /** formFetchUri: the gateway URI immediately followed by the CID. */
  function FormFetchUri(c: Client, cid: string): (uri: string)
    ensures |uri| == |c.gatewayServerUri| + |cid|
    ensures uri[..|c.gatewayServerUri|] == c.gatewayServerUri && uri[|c.gatewayServerUri|..] == cid
  {
    c.gatewayServerUri + cid
  }

  /** order lists every key of query exactly once. */
  predicate Enumerates(order: seq<string>, query: map<string, string>) {
    && (forall i :: 0 <= i < |order| ==> order[i] in query)
    && (forall k :: k in query ==> k in order)
    && (forall i, j :: 0 <= i < j < |order| ==> order[i] != order[j])
  }

  /** The text the loop writes: key "=" value "&" for each key in order. */
  function QueryText(order: seq<string>, query: map<string, string>): (s: string)
    requires forall i :: 0 <= i < |order| ==> order[i] in query
    ensures s == [] <==> order == []
    ensures order != [] ==> s[|s| - 1] == '&'
  {
    if order == [] then []
    else order[0] + "=" + query[order[0]] + "&" + QueryText(order[1..], query)
  }

  /** formApiIpfsUri: API URI, endpoint, and for a non-nil query a '?'
      followed by the query text. */
  function FormApiIpfsUri(c: Client, endpoint: string, query: Option<map<string, string>>, order: seq<string>): (uri: string)
    requires query.Some? ==> Enumerates(order, query.value)
    ensures query.None? ==> uri == c.apiServerUri + endpoint
    ensures var base := c.apiServerUri + endpoint;
      query.Some? ==> |uri| > |base| && uri[..|base| + 1] == base + "?"
    ensures query.Some? && |query.value| == 0 ==> uri[|uri| - 1] == '?'
    ensures query.Some? && |query.value| > 0 ==> uri[|uri| - 1] == '&'
  {
    var base := c.apiServerUri + endpoint;
    match query
    case None => base
    case Some(m) =>
      assert |m| > 0 ==> order != [] by {
        if |m| > 0 {
          var k :| k in m;
          assert k in order;
        }
      }
      var uri := base + "?" + QueryText(order, m);
      assert uri[..|base| + 1] == base + "?";
      uri
  }

  /** Reads a query text back: entries end at '&', and an entry's key ends
      at its first '='. */
  function ParseQuery(s: string): seq<(string, string)>
    decreases |s|
  {
    if s == [] then []
    else
      var n := IndexByte(s, '&');
      var entry := s[..n];
      var m := IndexByte(entry, '=');
      var pair := (entry[..m], if m < |entry| then entry[m + 1..] else "");
      [pair] + (if n < |s| then ParseQuery(s[n + 1..]) else [])
  }

  /** One entry is read back when its key holds neither '=' nor '&' and its
      value holds no '&'. */
  lemma ParseEntry(k: string, v: string, rest: string)
    requires '=' !in k && '&' !in k && '&' !in v
    ensures ParseQuery(k + "=" + v + "&" + rest) == [(k, v)] + ParseQuery(rest)
  {
    var s := k + "=" + v + "&" + rest;
    var n := |k| + 1 + |v|;
    assert s[..n] == k + "=" + v;
    IndexByteAt(s, '&', n);
    var entry := s[..n];
    IndexByteAt(entry, '=', |k|);
    assert entry[..|k|] == k && entry[|k| + 1..] == v;
    assert s[n + 1..] == rest;
  }

  /** No key holds '=' or '&', and no value holds '&'. */
  predicate Unambiguous(query: map<string, string>) {
    forall k :: k in query ==> '=' !in k && '&' !in k && '&' !in query[k]
  }

  /** The entries of query in iteration order. */
  function Entries(order: seq<string>, query: map<string, string>): (e: seq<(string, string)>)
    requires forall i :: 0 <= i < |order| ==> order[i] in query
    ensures |e| == |order|
    ensures forall i :: 0 <= i < |order| ==> e[i] == (order[i], query[order[i]])
  {
    if order == [] then [] else [(order[0], query[order[0]])] + Entries(order[1..], query)
  }

  /** The query text reads back as the entries, in iteration order. */
  lemma {:induction false} QueryTextParses(order: seq<string>, query: map<string, string>)
    requires forall i :: 0 <= i < |order| ==> order[i] in query
    requires Unambiguous(query)
    ensures ParseQuery(QueryText(order, query)) == Entries(order, query)
  {
    if order != [] {
      QueryTextParses(order[1..], query);
      ParseFirstEntry(order, query);
    }
  }

  /** The first entry of the query text reads back, followed by the rest. */
  lemma ParseFirstEntry(order: seq<string>, query: map<string, string>)
    requires order != [] && forall i :: 0 <= i < |order| ==> order[i] in query
    requires Unambiguous(query)
    ensures ParseQuery(QueryText(order, query))
         == [(order[0], query[order[0]])] + ParseQuery(QueryText(order[1..], query))
  {
    var k := order[0];
    var rest := QueryText(order[1..], query);
    assert QueryText(order, query) == k + "=" + query[k] + "&" + rest;
    ParseEntry(k, query[k], rest);
  }

  /** A sequence without repeats has as many elements as its set. */
  lemma {:induction false} DistinctCount(order: seq<string>)
    requires forall i, j :: 0 <= i < j < |order| ==> order[i] != order[j]
    ensures |set x | x in order| == |order|
  {
    if order != [] {
      DistinctCount(order[1..]);
      assert (set x | x in order) == {order[0]} + (set x | x in order[1..]);
      assert order[0] !in (set x | x in order[1..]);
    }
  }

  /** Each entry of a query appears in the URI exactly once: the text after
      '?' reads back as one entry per key, in iteration order. */
  lemma ApiUriCarriesEachEntryOnce(c: Client, endpoint: string, query: map<string, string>, order: seq<string>)
    requires Enumerates(order, query) && Unambiguous(query)
    ensures |Entries(order, query)| == |query|
    ensures var base := c.apiServerUri + endpoint;
      ParseQuery(FormApiIpfsUri(c, endpoint, Some(query), order)[|base| + 1..]) == Entries(order, query)
  {
    var base := c.apiServerUri + endpoint;
    var uri := FormApiIpfsUri(c, endpoint, Some(query), order);
    assert uri[|base| + 1..] == QueryText(order, query);
    QueryTextParses(order, query);
    EnumerationCount(order, query);
  }

  /** An enumeration has one element per key. */
  lemma EnumerationCount(order: seq<string>, query: map<string, string>)
    requires Enumerates(order, query)
    ensures |order| == |query|
  {
    DistinctCount(order);
    assert (set x | x in order) == query.Keys;
  }

  /** Values are not escaped: two different queries can give the same URI. */
  lemma QueryIsNotEscaped(c: Client)
    ensures var one := map["a" := "1&b=2"];
      var two := map["a" := "1", "b" := "2"];
      && Enumerates(["a"], one) && Enumerates(["a", "b"], two)
      && one != two
      && FormApiIpfsUri(c, CatFileEndpoint, Some(one), ["a"]) == FormApiIpfsUri(c, CatFileEndpoint, Some(two), ["a", "b"])
  {
    var one := map["a" := "1&b=2"];
    var two := map["a" := "1", "b" := "2"];
    assert "a" != "b" by { assert "a"[0] != "b"[0]; }
    assert one != two by { assert "b" in two && "b" !in one; }
    assert QueryText(["a"], one) == "a=1&b=2&";
    assert QueryText(["a", "b"], two) == "a=1&" + QueryText(["b"], two);
    assert QueryText(["b"], two) == "b=2&";
  }
}

=== FILE: key_file.dfy ===
/** cutils/key.go: drawing a 24-byte AES-192 key (FIPS 197), writing it as
    lower-case hex to <home>/.catena/master.key, and naming that file.
    The file system is a map from path to contents; paths are compared with
    runs of slashes collapsed, as Linux resolves them. */
module KeyFile {
  import opened Go
  import opened Hex

  /** Length of every key GenerateKey draws: an AES-192 key. */
  const KeySize: nat := 24

  type Key = k: seq<byte> | |k| == KeySize witness seq(24, _ => 0)

  const KeyDirName: string := ".catena"
  const KeyFileName: string := "master.key"

  /** The path with every run of slashes collapsed to one. */
  function Canonical(p: string): (r: string)
    decreases |p|
    ensures |r| <= |p|
    ensures |p| > 0 ==> |r| > 0 && r[0] == p[0]
    ensures forall i :: 0 <= i < |r| - 1 ==> !(r[i] == '/' && r[i + 1] == '/')
  {
    if |p| == 0 then []
    else if |p| >= 2 && p[0] == '/' && p[1] == '/' then Canonical(p[1..])
    else
      var rest := Canonical(p[1..]);
      var r := [p[0]] + rest;
      assert forall i :: 1 <= i < |r| - 1 ==> r[i] == rest[i - 1] && r[i + 1] == rest[i];
      r
  }

  datatype FileSystem = FileSystem(files: map<string, string>)

  /** ioutil.ReadFile: the contents, or None for any read error. */
  function ReadFile(fs: FileSystem, path: string): (r: Option<string>)
    ensures r.Some? <==> Canonical(path) in fs.files
    ensures r.Some? ==> r.value == fs.files[Canonical(path)]
  {
    if Canonical(path) in fs.files then Some(fs.files[Canonical(path)]) else None
  }

  /** Which file-system calls fail: loadKey's read of an existing key file
      (a permission, directory or I/O error), and GenerateKeyFile's create
      and write. */
  datatype FsFaults = FsFaults(readFails: bool, createFails: bool, writeFails: bool)

  /** A key together with the file system after it was written. */
  datatype Persisted = Persisted(key: seq<byte>, fs: FileSystem)

  /** GenerateKey: the 24 bytes read from crypto/rand; log.Fatal if the
      read fails. */
  function GenerateKey(draw: Draw<Key>): (r: Res<seq<byte>>)
    ensures r.Ok? || r == Exit(RandomnessUnavailable)
    ensures r.Ok? <==> draw.Drew?
    ensures r.Ok? ==> |r.value| == KeySize && r.value == draw.value
  {
    match draw
    case Drew(k) => Ok(k)
    case DrawFailed => Exit(RandomnessUnavailable)
  }

  /** GetKeyDirPath: "<home>/.catena", where home is the value of $HOME.
      os.UserHomeDir fails on Linux when $HOME is empty or unset, and the
      code then calls log.Fatal; both cases are the empty string here. */
  function GetKeyDirPath(home: string): (r: Res<string>)
    ensures r.Ok? || r == Exit(NoHomeDir)
    ensures r.Ok? <==> home != []
    ensures r.Ok? ==> |r.value| == |home| + 8 && r.value[..|home|] == home && r.value[|home|..] == "/.catena"
  {
    if home == [] then Exit(NoHomeDir) else Ok(home + "/" + KeyDirName)
  }

  /** The name under which GenerateKeyFile creates the key file: the
      directory, a slash, and the key file's name. */
  function KeyFilePath(dir: string): (p: string)
    ensures |p| == |dir| + 11 && p[..|dir|] == dir && p[|dir|..] == "/master.key"
  {
    dir + "/" + KeyFileName
  }

  /** GetKeyPath: the name main.go reads the key from. It puts a slash in
      front of the directory, which already starts with the home path. */
  function GetKeyPath(home: string): (r: Res<string>)
    ensures r.Ok? || r == Exit(NoHomeDir)
    ensures r.Ok? <==> home != []
    ensures r.Ok? ==> r.value == "/" + (home + "/.catena/master.key")
  {
    match GetKeyDirPath(home)
    case Ok(dir) => Ok("/" + dir + "/" + KeyFileName)
    case _ => Exit(NoHomeDir)
  }

  /** GenerateKeyFile: draw a key, create the directory (its error ignored),
      create the key file, write the hex of the key, return the key. Each
      other failure ends the process. */
  function GenerateKeyFile(fs: FileSystem, home: string, draw: Draw<Key>, faults: FsFaults): (r: Res<Persisted>)
    ensures r.Ok? || r.Exit?
    ensures r.Ok? <==> draw.Drew? && home != [] && !faults.createFails && !faults.writeFails
    ensures draw.DrawFailed? ==> r == Exit(RandomnessUnavailable)
    ensures draw.Drew? && home == [] ==> r == Exit(NoHomeDir)
    ensures r.Ok? ==>
      && r.value.key == draw.value
      && ReadFile(r.value.fs, home + "/.catena/master.key") == Some(EncodeToString(r.value.key))
  {
    match GenerateKey(draw)
    case Ok(key) =>
      (match GetKeyDirPath(home)
       case Ok(dir) =>
         if faults.createFails then Exit(CreateFailed)
         else if faults.writeFails then Exit(WriteFailed)
         else
           var path := KeyFilePath(dir);
           assert path == home + "/.catena/master.key";
           Ok(Persisted(key, FileSystem(fs.files[Canonical(path) := EncodeToString(key)])))
       case _ => Exit(NoHomeDir))
    case _ => Exit(RandomnessUnavailable)
  }

  /** The key file's contents are 48 lower-case hex digits that decode,
      without error, to the key GenerateKeyFile returned. */
  lemma GeneratedFileDecodesToKey(fs: FileSystem, home: string, draw: Draw<Key>, faults: FsFaults)
    requires GenerateKeyFile(fs, home, draw, faults).Ok?
    ensures var p := GenerateKeyFile(fs, home, draw, faults).value;
      var text := ReadFile(p.fs, home + "/.catena/master.key").value;
      && |text| == 2 * KeySize
      && (forall i :: 0 <= i < |text| ==> IsLowerHexChar(text[i]))
      && DecodeString(text) == Decoded(p.key, false)
  {
    var p := GenerateKeyFile(fs, home, draw, faults).value;
    DecodeEncode(p.key);
  }

  /** GenerateKeyFile writes the key file and nothing else: every other
      file reads as it did before. */
  lemma GenerateKeyFileWritesOnlyKeyFile(fs: FileSystem, home: string, draw: Draw<Key>, faults: FsFaults, other: string)
    requires GenerateKeyFile(fs, home, draw, faults).Ok?
    requires Canonical(other) != Canonical(home + "/.catena/master.key")
    ensures ReadFile(GenerateKeyFile(fs, home, draw, faults).value.fs, other) == ReadFile(fs, other)
  {
    assert KeyFilePath(GetKeyDirPath(home).value) == home + "/.catena/master.key";
  }

  /** Two paths with the same canonical form read the same file. */
  lemma SameFile(fs: FileSystem, a: string, b: string)
    requires Canonical(a) == Canonical(b)
    ensures ReadFile(fs, a) == ReadFile(fs, b)
  {
  }

  /** A slash in front of a path that already starts with one names the
      same file. */
  lemma {:induction false} LeadingSlashIsHarmless(p: string)
    requires |p| > 0 && p[0] == '/'
    ensures Canonical("/" + p) == Canonical(p)
  {
    assert ("/" + p)[1..] == p;
  }

  /** When the home directory is absolute, GetKeyPath and the
      name GenerateKeyFile writes to denote the same file. */
  lemma KeyPathNamesWrittenFile(home: string)
    requires home != [] && home[0] == '/'
    ensures Canonical(GetKeyPath(home).value) == Canonical(home + "/.catena/master.key")
  {
    var written := home + "/.catena/master.key";
    assert written[0] == home[0];
    LeadingSlashIsHarmless(written);
  }

  /** With a relative home directory the two names denote different files,
      so the key written is not the key read back. */
  lemma RelativeHomeSplitsKeyPaths(home: string)
    requires home != [] && home[0] != '/'
    ensures Canonical(GetKeyPath(home).value) != Canonical(home + "/.catena/master.key")
  {
    var written := home + "/.catena/master.key";
    assert written[0] == home[0];
  }
}

=== FILE: key_store.dfy ===
/** The MongoDB collection "crypto"/"secret" holding one wrapped key per user,
    seen through the three calls the crypto service makes: FindOne,
    CountDocuments and InsertOne. The collection is a sequence of documents in
    insertion order, so nothing in the type forbids two documents with the
    same email; that they never arise is proved of the service. A failure of a
    call (a timeout, a lost connection) is an input flag. */
module KeyStore {
  import opened Go

  /** A stored document: the user's email and the hex of the wrapped key. */
  datatype UserKey = UserKey(email: string, key: string)

  type Collection = seq<UserKey>

  /** Which store calls fail during one request. */
  datatype Faults = Faults(findFails: bool, countFails: bool, insertFails: bool)

  const NoFaults := Faults(false, false, false)

  /** No document of the collection belongs to email. */
  predicate NoRecord(c: Collection, email: string) {
    forall i :: 0 <= i < |c| ==> c[i].email != email
  }

  /** The collection holds at most one document per email. */
  predicate AtMostOnePerEmail(c: Collection) {
    forall i, j :: 0 <= i < j < |c| ==> c[i].email != c[j].email
  }

  /** Index of the first document of email, in insertion order. */
  function FirstMatch(c: Collection, email: string): (r: Option<nat>)
    ensures r.None? <==> NoRecord(c, email)
    ensures r.Some? ==> r.value < |c| && c[r.value].email == email
    ensures r.Some? ==> forall j :: 0 <= j < r.value ==> c[j].email != email
  {
    if c == [] then None
    else if c[0].email == email then Some(0)
    else
      match FirstMatch(c[1..], email)
      case None => None
      case Some(k) => Some(k + 1)
  }

  /** Number of documents of email. */
  function Count(c: Collection, email: string): (n: nat)
    ensures n <= |c|
    ensures n == 0 <==> NoRecord(c, email)
  {
    if c == [] then 0
    else (if c[0].email == email then 1 else 0) + Count(c[1..], email)
  }

  /** The outcome of FindOne(...).Decode(...). */
  datatype Lookup = Found(key: string) | Absent | LookupError

  /** FindOne with an email filter and no sort: the first document in
      natural order. */
  function FindOne(c: Collection, email: string, fails: bool): (r: Lookup)
    ensures fails ==> r == LookupError
    ensures !fails ==> (r == Absent <==> NoRecord(c, email))
    ensures r.Found? ==> exists i :: 0 <= i < |c| && c[i] == UserKey(email, r.key)
  {
    if fails then LookupError
    else
      match FirstMatch(c, email)
      case None => Absent
      case Some(i) => Found(c[i].key)
  }

  /** CountDocuments: the count and whether an error came with it (the
      driver reports a count of zero alongside an error). */
  datatype CountReply = CountReply(count: nat, failed: bool)

  function CountDocuments(c: Collection, email: string, fails: bool): (r: CountReply)
    ensures r.failed == fails
    ensures r.count > 0 <==> !fails && !NoRecord(c, email)
  {
    if fails then CountReply(0, true) else CountReply(Count(c, email), false)
  }

  /** InsertOne. A failed insert is taken to have written nothing. */
  function InsertOne(c: Collection, doc: UserKey, fails: bool): (r: Res<Collection>)
    ensures r.Ok? || r == Err(InsertFailed)
    ensures r.Ok? <==> !fails
    ensures r.Ok? ==> |r.value| == |c| + 1 && r.value[..|c|] == c && r.value[|c|] == doc
  {
    if fails then Err(InsertFailed) else Ok(c + [doc])
  }

  /** Appending the first document of an email keeps emails unique, and
      makes that document the one FindOne returns. */
  lemma AppendFirstRecord(c: Collection, doc: UserKey)
    requires NoRecord(c, doc.email)
    ensures AtMostOnePerEmail(c) ==> AtMostOnePerEmail(c + [doc])
    ensures FirstMatch(c + [doc], doc.email) == Some(|c|)
    ensures FindOne(c + [doc], doc.email, false) == Found(doc.key)
  {
    var c' := c + [doc];
    var m := FirstMatch(c', doc.email);
    assert c'[|c|].email == doc.email;
    assert m.Some?;
    assert forall j :: 0 <= j < |c| ==> c'[j] == c[j];
  }
}

=== FILE: master_key.dfy ===
/** main.go's loadKey: read the master key file, hex-decode it into a fixed
    24-byte buffer ignoring any decode error, or generate a new key file if
    the read fails. */
module MasterKey {
  import opened Go
  import opened Hex
  import opened KeyFile

  function Zeros(n: nat): (z: seq<byte>)
    ensures |z| == n && forall i :: 0 <= i < n ==> z[i] == 0
  {
    seq(n, _ => 0)
  }

  /** What loadKey reads: the key file's contents, or None when it is
      missing or the read fails. */
  function KeyFileText(fs: FileSystem, home: string, faults: FsFaults): (r: Option<string>)
    requires home != []
    ensures faults.readFails ==> r.None?
    ensures !faults.readFails ==> r == ReadFile(fs, GetKeyPath(home).value)
  {
    if faults.readFails then None else ReadFile(fs, GetKeyPath(home).value)
  }

  /** loadKey. */
  function LoadKey(fs: FileSystem, home: string, draw: Draw<Key>, faults: FsFaults): (r: Res<Persisted>)
    ensures home == [] ==> r == Exit(NoHomeDir)
    ensures home != [] && faults.readFails ==> r == GenerateKeyFile(fs, home, draw, faults)
    ensures home != [] && KeyFileText(fs, home, faults).None? ==> r == GenerateKeyFile(fs, home, draw, faults)
    ensures r.Ok? ==> |r.value.key| == KeySize
    ensures home != [] && KeyFileText(fs, home, faults).Some? ==>
      var pairs := DecodedPairs(KeyFileText(fs, home, faults).value);
      && (r.Ok? || r.Panic?)
      && (r.Ok? <==> |pairs| <= KeySize)
      && (r.Ok? ==> r.value.fs == fs && r.value.key == pairs + Zeros(KeySize - |pairs|))
  {
    var buffer := Zeros(KeySize);
    match GetKeyPath(home)
    case Ok(_) =>
      (match KeyFileText(fs, home, faults)
       case None => GenerateKeyFile(fs, home, draw, faults)
       case Some(text) =>
         match DecodeInto(buffer, text)
         case Ok(w) => Ok(Persisted(w.dst, fs))
         case _ => Panic(IndexOutOfRange))
    case _ => Exit(NoHomeDir)
  }

  /** A key file holding exactly 48 hex digits loads as the bytes they
      encode, and those bytes encode back to the file's digits. */
  lemma WellFormedKeyFileLoads(fs: FileSystem, home: string, draw: Draw<Key>, faults: FsFaults)
    requires home != [] && KeyFileText(fs, home, faults).Some?
    requires var text := KeyFileText(fs, home, faults).value; ValidHex(text) && |text| == 2 * KeySize
    ensures var text := KeyFileText(fs, home, faults).value;
      && LoadKey(fs, home, draw, faults) == Ok(Persisted(DecodeString(text).bytes, fs))
      && EncodeToString(LoadKey(fs, home, draw, faults).value.key) == Lower(text)
  {
    var text := KeyFileText(fs, home, faults).value;
    var pairs := DecodedPairs(text);
    assert |pairs| == KeySize;
    assert pairs + Zeros(0) == pairs;
    EncodeDecode(text);
  }

  /** Master-key persistence: after GenerateKeyFile, loadKey on the same
      file system returns the same 24 bytes, provided the home directory is
      absolute, so that GetKeyPath names the file that was written. */
  lemma LoadAfterGenerate(fs: FileSystem, home: string, draw: Draw<Key>, faults: FsFaults,
                          draw': Draw<Key>, faults': FsFaults)
    requires home != [] && home[0] == '/'
    requires GenerateKeyFile(fs, home, draw, faults).Ok?
    requires !faults'.readFails
    ensures LoadKey(GenerateKeyFile(fs, home, draw, faults).value.fs, home, draw', faults')
         == GenerateKeyFile(fs, home, draw, faults)
  {
    var p := GenerateKeyFile(fs, home, draw, faults).value;
    var text := EncodeToString(p.key);
    ReadBackWrittenKey(fs, home, draw, faults);
    assert KeyFileText(p.fs, home, faults') == Some(text);
    DecodeEncode(p.key);
    assert DecodedPairs(text) == p.key;
    assert p.key + Zeros(0) == p.key;
  }

  /** GetKeyPath reads back the file GenerateKeyFile wrote. */
  lemma ReadBackWrittenKey(fs: FileSystem, home: string, draw: Draw<Key>, faults: FsFaults)
    requires home != [] && home[0] == '/'
    requires GenerateKeyFile(fs, home, draw, faults).Ok?
    ensures var p := GenerateKeyFile(fs, home, draw, faults).value;
      ReadFile(p.fs, GetKeyPath(home).value) == Some(EncodeToString(p.key))
  {
    var p := GenerateKeyFile(fs, home, draw, faults).value;
    KeyPathNamesWrittenFile(home);
    SameFile(p.fs, GetKeyPath(home).value, home + "/.catena/master.key");
  }

  /** A failed read of a key file that exists is taken for a missing file:
      loadKey generates a fresh key and overwrites the file with it, so the
      previous master key is gone. */
  lemma ReadFailureReplacesKeyFile(fs: FileSystem, home: string, draw: Draw<Key>, faults: FsFaults)
    requires home != [] && home[0] == '/' && faults.readFails
    requires LoadKey(fs, home, draw, faults).Ok?
    ensures var p := LoadKey(fs, home, draw, faults).value;
      && p.key == draw.value
      && ReadFile(p.fs, GetKeyPath(home).value) == Some(EncodeToString(draw.value))
  {
    ReadBackWrittenKey(fs, home, draw, faults);
  }

  /** Decode errors are not surfaced: a key file with fewer than 24 leading
      hex pairs loads without error, its tail left zero. */
  lemma ShortKeyFileIsZeroPadded(fs: FileSystem, home: string, draw: Draw<Key>, faults: FsFaults)
    requires home != [] && KeyFileText(fs, home, faults) == Some("ab")
    ensures LoadKey(fs, home, draw, faults) == Ok(Persisted([0xab] + Zeros(KeySize - 1), fs))
  {
    assert PairOk("ab", 0);
    assert "ab"[2..] == [];
    assert DecodedPairs("ab") == [0xab];
  }

  /** A key file with more than 48 hex digits makes hex.Decode write past
      the 24-byte buffer, which panics. */
  lemma OverlongKeyFilePanics(fs: FileSystem, home: string, draw: Draw<Key>, faults: FsFaults)
    requires home != [] && KeyFileText(fs, home, faults).Some?
    requires var text := KeyFileText(fs, home, faults).value; ValidHex(text) && |text| > 2 * KeySize
    ensures LoadKey(fs, home, draw, faults) == Panic(IndexOutOfRange)
  {
    var text := KeyFileText(fs, home, faults).value;
    assert |DecodeString(text).bytes| == |text| / 2;
  }
}

=== FILE: orphaned_key.dfy ===
/** A concrete scenario, proved, of the lookup-failure defect of
    EncryptUserFile, over a stand-in AEAD whose tag is the key's first byte
    repeated. The stand-in satisfies Sound, so it is one admissible AES-GCM
    of the model. */
module OrphanedKey {
  import opened Go
  import opened Gcm
  import opened KeyStore
  import opened CryptoService
  import KeyFile

  function ToyTag(key: seq<byte>): seq<byte> {
    seq(TagSize, _ => if |key| > 0 then key[0] else 0)
  }

  function ToyAead(): Aead {
    Aead(
      (key: seq<byte>, nonce: Nonce, plain: seq<byte>) => plain + ToyTag(key),
      (key: seq<byte>, nonce: Nonce, sealed: seq<byte>) =>
        if |sealed| >= TagSize && sealed[|sealed| - TagSize..] == ToyTag(key)
        then Some(sealed[..|sealed| - TagSize]) else None)
  }

  lemma ToyAeadIsSound()
    ensures Sound(ToyAead())
  {
    var aead := ToyAead();
    forall key, nonce, plain | ValidKeyLength(key)
      ensures |aead.seal(key, nonce, plain)| == |plain| + TagSize
      ensures aead.open(key, nonce, aead.seal(key, nonce, plain)) == Some(plain)
    {
      var sealed := plain + ToyTag(key);
      assert sealed[|sealed| - TagSize..] == ToyTag(key);
      assert sealed[..|sealed| - TagSize] == plain;
    }
  }

  function Fill(n: nat, b: byte): seq<byte> {
    seq(n, _ => b)
  }

  /** Alice has a record wrapping key K1. FindOne times out during her
      upload; a key K2 is drawn, StoreKey sees her record and skips the
      insert, and the 3-byte file is sealed (31 bytes) under K2. With the
      store working again, her download unwraps K1 and the tag check
      fails: the file cannot be decrypted. */
  lemma UploadDuringLookupFailureIsUnreadable()
    ensures
      var svc := Service(Fill(24, 7), ToyAead());
      var nonce: Nonce := Fill(NonceSize, 0);
      var k1: KeyFile.Key := Fill(24, 1);
      var k2: KeyFile.Key := Fill(24, 2);
      var email := "alice@example.com";
      var store := [WrappedRecord(svc, email, k1, nonce)];
      var file: seq<byte> := [1, 2, 3];
      var upload := EncryptUserFile(svc, store, Faults(true, false, false), email, file,
                                    Coins(Drew(k2), Drew(nonce), Drew(nonce)));
      && upload.Ok?
      && upload.value.store == store
      && |upload.value.value| == 31
      && DecryptUserFile(svc, upload.value.store, NoFaults, email, upload.value.value) == Panic(MessageAuthFailed)
  {
    var svc := Service(Fill(24, 7), ToyAead());
    var nonce: Nonce := Fill(NonceSize, 0);
    var k1: KeyFile.Key := Fill(24, 1);
    var k2: KeyFile.Key := Fill(24, 2);
    var email := "alice@example.com";
    var record := WrappedRecord(svc, email, k1, nonce);
    var store := [record];
    var file: seq<byte> := [1, 2, 3];
    var coins := Coins(Drew(k2), Drew(nonce), Drew(nonce));
    var faults := Faults(true, false, false);
    ToyAeadIsSound();
    assert !NoRecord(store, email) by { assert store[0].email == email; }
    LookupFailureOrphansKey(svc, store, faults, email, file, coins);
    var blob := nonce + svc.aead.seal(k2, nonce, file);
    assert EncryptUserFile(svc, store, faults, email, file, coins) == Ok(Stored(blob, store));
    // The working lookup unwraps K1.
    AppendFirstRecord([], record);
    assert [] + [record] == store;
    WrappedRecordUnwraps(svc, email, k1, nonce);
    assert FetchDecryptedKey(svc, store, NoFaults, email) == Ok(Some(k1));
    // K1 does not open what K2 sealed.
    assert blob[..NonceSize] == nonce && blob[NonceSize..] == file + ToyTag(k2);
    var sealed := blob[NonceSize..];
    assert sealed[|sealed| - TagSize..] == ToyTag(k2);
    assert ToyTag(k2)[0] == 2 && ToyTag(k1)[0] == 1;
    assert svc.aead.open(k1, nonce, sealed) == None;
  }
}
